=== FILE: README.md ===
# ReverseMarket core in Dafny

ReverseMarket is a "reverse marketplace": a buyer posts a request for something, stores that sell in the request's category are alerted, and an administrator approves requests before they are listed publicly. This project models the logic at the heart of that web application as pure Dafny functions over an in-memory store and a per-visitor session, and proves what the controllers promise.

What is modelled:

- **Phone verification and registration** (`AccountController`, `AccountProperties`, `VerificationRuns`):
  - Each action is a step from (session, store) to (session', store', messages, outcome). The actions are Login, VerifyOTP, VerifyPhone, CreateAccount, ResendCode and Logout, with their GET pages.
  - The session is a string-keyed map whose values were written either as strings or as 32-bit integers.
  - The clock, the random code and the GUID used for the profile-image file name are parameters.
  - `VerificationRuns` replays sequences of visits against one session, the idle timeout included, to state what a `PhoneVerified` flag can mean.
- **Seller matching and fan-out** (`Matching`, `MatchingProperties`):
  - The three-way id comparison with C#'s lifted `int?` equality, where null equals null.
  - Projection to Seller users, de-duplication, and one console message per seller who has a phone number.
- **Requests** (`RequestsController`, `AdminRequestsController`, `RequestLifecycle`, `Listing`):
  - Creation while signed in, which alerts stores at once, and the public listing and details pages, which show only approved requests.
  - The administrator's listing, details page and unguarded status assignment.
  - The paging arithmetic, including C#'s 32-bit wrap of `(page - 1) * size`.
- **Category taxonomy** (`CategoryModels`, `AdminCategoriesController`):
  - Three record levels with one-level-up parent ids.
  - The active-children lookups, the category list ordered by name, creation at every level and category deletion.
- **Message templates** (`WhatsApp`): the code, store and approval texts, and the channel's send as an abstract operation that returns a boolean.
- **Form validation** (`AccountViewModels`):
  - The required fields and length bounds.
  - The four-digit code rule, where .NET's `\d` also admits non-ASCII decimal digits.
- **Store invariants** (`StoreInvariants`):
  - Every writing action keeps ids unique and below their identity counters.
  - The category actions keep or break the taxonomy's parent links. The POST handlers do not look up the parent, although their GET pages do.

`Entities` holds the stored records and `Mvc` the outcome of an action (a redirect target, a redisplay with an error, a view, or NotFound). The `User`, `Request` and `StoreCategory` entity classes are not part of this model. Their fields are inferred from how the controllers use them, and the optional sub-category ids of a `StoreCategory` are `Option<int>`.

## Model

| member | source | states |
|---|---|---|
| AccountController.GenerateOtp | Controllers/AccountController.cs:334-338 | for every value `Random.Next(1000, 9999)` can draw (1000 to 9998), the code is exactly four ASCII digits, it parses back to the draw, and it satisfies the form's four-digit rule |
| AccountController.NormalizePhone | Controllers/AccountController.cs:40 | the stored number is the country code followed by a suffix of the entered number; everything cut off in front of the suffix is '0', and the suffix itself does not start with '0', so every leading zero is stripped |
| AccountProperties.NormalizeIraqiMobile | Controllers/AccountController.cs:40 | "07701234567" with the default "+964" becomes "+9647701234567" |
| AccountProperties.NormalizeStripsEveryLeadingZero | Controllers/AccountController.cs:40 | "007701234567" gives the same number as "07701234567": more than one leading zero is removed |
| AccountController.SignIn | Controllers/AccountController.cs:317-323 | after sign-in, UserId holds the user's id as an integer, UserName holds "first last", UserType holds the role's name and IsLoggedIn holds "true"; every other key is as it was |
| AccountController.ClearVerification | Controllers/AccountController.cs:325-332 | OTP, VerificationCode, PhoneNumber, LoginType and PhoneVerified are all absent afterwards, and no other key changes |
| AccountController.CompleteSignIn | Controllers/AccountController.cs:111-114 | a completed sign-in leaves the four sign-in keys describing the user, none of the five verification keys, and every other key untouched |
| AccountController.PendingLogin | Controllers/AccountController.cs:51-53 | a registered number's login writes the code under OTP, the number under PhoneNumber and "ExistingUser" under LoginType, and nothing else |
| AccountController.PendingRegistration | Controllers/AccountController.cs:66-68 | an unknown number's login writes the code under VerificationCode, the number under PhoneNumber and "NewUser" under LoginType, and nothing else |
| AccountController.LoginPage | Controllers/AccountController.cs:24-31 | the empty login form is pre-filled with the country code "+964" |
| AccountViewModels.NewLoginForm | Models/ViewModels/AccountViewModels.cs:5-15 | a new login form has an empty number, country code "+964" and the terms box unticked |
| AccountController.Login | Controllers/AccountController.cs:35-78 | an invalid form changes nothing and sends nothing. A valid form creates no user and sends exactly one message, on the WhatsApp channel, to the normalised number, and the message carries the code. A registered number gets the OTP/ExistingUser keys and goes to VerifyOTP; an unknown number gets the VerificationCode/NewUser keys and goes to VerifyPhone. No other key changes |
| AccountProperties.LoginKeepsPhoneVerified | Controllers/AccountController.cs:42-74 | a PhoneVerified="true" left by an earlier flow is still "true" after any valid Login |
| AccountController.SessionUser | Controllers/AccountController.cs:101-108 | the user found is a stored user whose phone equals the session's PhoneNumber; none is found exactly when the key is absent or no stored user has that phone |
| AccountController.VerifyOtpPage | Controllers/AccountController.cs:81-92 | the page is shown exactly when PhoneNumber is set and non-empty, otherwise the browser goes to Login |
| AccountController.VerifyOtp | Controllers/AccountController.cs:96-125 | sign-in succeeds if and only if the form is valid, the code equals the stored OTP and a user owns the session's number. On success that user is signed in and the verification keys are cleared. On failure the session is unchanged and the form is redisplayed with the matching error. The store is never written and no message is sent |
| AccountProperties.VerifyOtpIgnoresLoginType | Controllers/AccountController.cs:100-119 | the outcome of VerifyOTP is the same whatever LoginType holds |
| AccountProperties.WrongCodeThenRightCode | Controllers/AccountController.cs:103-121 | a wrong code leaves the session as it was, so the right code still signs in afterwards: there is no attempt limit |
| AccountProperties.ExistingUserSignsIn | Controllers/AccountController.cs:35-125 | for a registered number, Login followed by VerifyOTP with the code just sent signs in the owner of that number and clears the verification keys |
| AccountController.VerifyPhonePage | Controllers/AccountController.cs:128-141 | the page is shown exactly when PhoneNumber is non-empty and LoginType is "NewUser", otherwise the browser goes to Login |
| AccountController.VerifyPhone | Controllers/AccountController.cs:145-163 | the browser goes on to CreateAccount if and only if the form is valid and the code equals the stored VerificationCode. Then PhoneVerified becomes "true" and no other key changes; otherwise the session is unchanged. LoginType is not consulted |
| AccountController.CreateAccountPage | Controllers/AccountController.cs:166-181 | the page is shown exactly when a non-empty PhoneNumber is pending and PhoneVerified is "true" |
| AccountController.GetExtension | Controllers/AccountController.cs:349 | an extension is found exactly when the last path segment has a '.' with at least one character after it, and it is then the suffix from the last such '.'; otherwise it is empty |
| AccountController.ExtensionOfNamedFile | Controllers/AccountController.cs:349 | a file named stem.ext, where ext is a non-empty word without '.' or a directory separator, has the extension .ext |
| AccountController.SaveProfileImage | Controllers/AccountController.cs:340-376 | an image gets a stored path exactly when it is non-empty, its lower-cased extension is .jpg, .jpeg, .png or .gif, and it is at most 5·1024·1024 bytes; the path contains the fresh file name |
| AccountController.NewStoreCategories | Controllers/AccountController.cs:255-268 | one specialty edge per listed category id, in order, owned by the new user, with only the category id set and consecutive edge ids |
| AccountController.ListedStoreCategories | Controllers/AccountController.cs:255 | edges are recorded only for a seller who listed categories, and then for exactly the listed ids |
| AccountController.CreateAccount | Controllers/AccountController.cs:185-284 | nothing is created, and the session is unchanged, when the form is invalid, when no verified number is pending, when the number is already registered, or when a non-empty e-mail is in use. With a valid form and a verified number pending, an already-registered number redirects to Login, and otherwise a taken non-empty e-mail shows the form again with the e-mail error. Registration succeeds exactly when none of these holds: with a valid form, a verified number pending, the number unregistered and the e-mail absent, empty or free, the browser goes home. On success exactly one user is appended: it has the session's number, IsPhoneVerified, the form's profile and role, and the current time as CreatedAt. It has a profile image exactly when one was uploaded and accepted, and then the stored path; a rejected image still registers the account, without an image. One edge is added per listed category for a seller, nothing else in the store changes, and the new user is signed in with the verification keys cleared |
| AccountProperties.NewUserRegisters | Controllers/AccountController.cs:35-284 | for an unknown number, Login, then VerifyPhone with the code just sent, then CreateAccount registers one verified user with that number, signs them in with the chosen role and clears the verification keys |
| AccountProperties.RegistrationOfIraqiMobile | Controllers/AccountController.cs:35-284 | "07701234567" registered as a buyer from an empty session yields a Buyer account for "+9647701234567" |
| AccountController.ResendCode | Controllers/AccountController.cs:287-306 | every path goes back to Login; nothing is sent and nothing changes |
| AccountController.Logout | Controllers/AccountController.cs:308-313 | every session key is removed, the store is untouched, and the browser goes home |
| AccountViewModels.FourDigitCodeIsFourDigits | Models/ViewModels/AccountViewModels.cs:17-31 | a code passes the Required, StringLength(4, 4) and `^\d{4}$` rules if and only if it is four characters, each a .NET decimal digit |
| AccountViewModels.TermsAreNotEnforced | Models/ViewModels/AccountViewModels.cs:13-14 | a login form with a non-blank number and a non-blank country code passes even with the terms box unticked |
| AccountProperties.ArabicIndicCodeIsValid | Models/ViewModels/AccountViewModels.cs:19-22 | "١٢٣٤" (Arabic-Indic digits) passes the OTP form's validation |
| AccountProperties.ArabicIndicCodeNeverMatches | Models/ViewModels/AccountViewModels.cs:19-22 | a valid code containing any non-ASCII digit can never equal a generated code |
| VerificationRuns.LoginResettingVerification | Controllers/AccountController.cs:35-78 | the corrected Login: a valid form leaves no PhoneVerified flag and touches only the verification keys; an invalid form changes nothing |
| VerificationRuns.ResettingLoginReplies | Controllers/AccountController.cs:35-78 | the corrected Login sends the same message and gives the same redirect as the Login as written |
| VerificationRuns.ResettingLoginCode | Controllers/AccountController.cs:63-68 | after the corrected Login, the number just entered is pending, and the only pending registration code is the one just sent |
| VerificationRuns.ResettingRunVerifiesLatestCode | Controllers/AccountController.cs:145-163 | with the corrected Login, after any sequence of visits from a fresh session, a pending registration code is the last code sent, to the pending number. A "true" PhoneVerified means a later VerifyPhone visit submitted exactly that code |
| VerificationRuns.AsWrittenRegistersUnverifiedNumber | Controllers/AccountController.cs:185-284 | as written: verify number A, then log in with an unknown number B. PhoneVerified is still "true", no VerifyPhone submitted B's code, and CreateAccount registers B as a verified number |
| VerificationRuns.ResettingRefusesUnverifiedNumber | Controllers/AccountController.cs:189-196 | with the corrected Login, the same visits leave no PhoneVerified flag, and CreateAccount stores nothing and sends the browser to Login |
| Sessions.GetString | Controllers/AccountController.cs:83 | reading a key returns the string `SetString` stored under it, and nothing when the key is absent or holds an integer (a type tag the framework does not keep; see Left out) |
| Sessions.GetInt32 | Controllers/RequestsController.cs:92 | reading a key returns the integer `SetInt32` stored under it, and nothing when the key is absent or holds a string (a type tag the framework does not keep; see Left out) |
| WhatsApp.SendMessage | Services/WhatsAppService.cs:30-57 | the message is handed to the given number unchanged, and the result is true exactly when no failure occurred |
| WhatsApp.OtpText | Services/WhatsAppService.cs:61 | the code text is the fixed opening, then exactly the code, then the fixed warning not to share it |
| WhatsApp.SendOtp | Services/WhatsAppService.cs:59-63 | one send to the same number whose text contains the code; its result is the send's result |
| WhatsApp.StoreNoticeText | Services/WhatsAppService.cs:67-72 | the store notice contains the store's name, the request's title and the link; it opens with the greeting and the store's name, and the link sits just before the closing signature |
| WhatsApp.NotifyStore | Services/WhatsAppService.cs:65-75 | one send to the given number whose text names the store, the request and the link; its result is the send's result |
| WhatsApp.ApprovalText | Services/WhatsAppService.cs:79-82 | the approval notice contains the buyer's name and the request's title; it opens with the greeting and the buyer's name, and the title sits just before the fixed closing paragraph |
| WhatsApp.NotifyUserApproval | Services/WhatsAppService.cs:77-85 | one send to the given number whose text names the buyer and the request; its result is the send's result |
| WhatsApp.OtpMessage | Services/WhatsAppService.cs:59-63 | the code message goes to the given number on the WhatsApp channel and contains the code |
| Matching.MatchedSellerRows | Controllers/RequestsController.cs:132-138 | a user is among the rows exactly when it is a seller that owns an edge matching the request |
| Matching.Distinct | Controllers/RequestsController.cs:139 | the same users as the input, each exactly once |
| Matching.RelevantSellers | Controllers/RequestsController.cs:132-140 | the sellers reached are exactly the stored sellers owning an edge that matches the request, none of them twice |
| Matching.WithPhone | Controllers/RequestsController.cs:145 | exactly the sellers with a non-empty phone, each as often as listed |
| Matching.FanOut | Controllers/RequestsController.cs:143-153 | one console message per seller with a phone, in order, to that seller's number |
| Matching.OneMessagePerSeller | Controllers/RequestsController.cs:143-153 | among sellers listed without repeats, one with a phone receives exactly one message and one without a phone receives none |
| Matching.StoreMessageText | Controllers/RequestsController.cs:147-148 | the store message opens with its fixed text followed directly by the request's title, and ends with the link |
| Matching.NotifyStores | Controllers/RequestsController.cs:129-155 | every message is a console line that contains the title and goes to the phone of a reached seller; there are as many messages as reached sellers with a phone |
| Matching.CategoryOnlyRequestMatches | Controllers/RequestsController.cs:134-136 | for a request without sub-categories, an edge matches if and only if it names the request's category or lacks either sub-category id |
| Matching.FullySpecifiedRequestMatches | Controllers/RequestsController.cs:134-136 | for a request with both sub-categories, an edge matches if and only if it shares the category or one of the sub-category ids |
| Matching.RegistrationEdgeMatchesEveryCoarseRequest | Controllers/AccountController.cs:259-264 | an edge recorded at registration (category id only) matches every request without a SubCategory1, whatever its category |
| MatchingProperties.IntendedCategoryOnly | Controllers/RequestsController.cs:134-136 | under the corrected clause, a request without sub-categories matches an edge if and only if the edge names its category |
| MatchingProperties.ClausesAgreeWhenSubCategoriesNamed | Controllers/RequestsController.cs:134-136 | when the request names both sub-categories, the corrected clause and the clause as written agree |
| MatchingProperties.IntendedNeverWider | Controllers/RequestsController.cs:134-136 | every edge the corrected clause matches, the clause as written matches too |
| MatchingProperties.IntendedSellersAmongAsWritten | Controllers/RequestsController.cs:132-140 | every seller reached under the corrected clause is also reached as written |
| MatchingProperties.IntendedCategoryOnlySellers | Controllers/RequestsController.cs:132-140 | under the corrected clause, a category-only request reaches exactly the sellers with an edge in its category |
| MatchingProperties.AsWrittenReachesOtherCategories | Controllers/RequestsController.cs:134-136 | as written, a seller whose only edge is another whole category hears about a category-only request; under the corrected clause they do not |
| RequestsController.Index | Controllers/RequestsController.cs:18-58 | the query is rejected exactly when the 32-bit, wrapping offset (page - 1) * 12 is negative, so not every page below one is rejected and some very large pages are. Otherwise the page holds at most 12 stored requests, newest approval first, each approved, matching the search and in the chosen category. The page is exactly the slice that skipping (page - 1) * 12 and taking 12 cuts from some newest-approval-first ordering of all the matches. The page count is the ceiling of the matches over 12, and the category list is exactly the active categories |
| RequestsController.FindApproved | Controllers/RequestsController.cs:62-68 | the request found is a stored, approved request with that id; none is found exactly when no stored request is both |
| RequestsController.Details | Controllers/RequestsController.cs:60-76 | NotFound unless a request with that id exists and is approved |
| RequestsController.NewRequest | Controllers/RequestsController.cs:98-110 | the new request is Pending, owned by the signed-in user, carries the form's title, description, category ids, city, district and location, gets the next request id and the current time as CreatedAt, and has no approval time or notes |
| RequestsController.Create | Controllers/RequestsController.cs:87-127 | an invalid form or a missing UserId stores nothing and sends nothing; the latter goes to Login. Otherwise exactly one request is appended, the one NewRequest builds from the form for that user under the next identity, and nothing else changes. The stores matching it are alerted at once |
| RequestsController.GetSubCategories1 | Controllers/RequestsController.cs:158-166 | exactly the (id, name) pairs of the active SubCategory1 records under the category |
| RequestsController.GetSubCategories2 | Controllers/RequestsController.cs:169-177 | exactly the (id, name) pairs of the active SubCategory2 records under the SubCategory1 |
| Listing.Wrap32 | Areas/Admin/Controllers/RequestsController.cs:38 | the result agrees with the exact value modulo 2^32 and equals it whenever it fits in 32 bits |
| Listing.OrderByDescending | Areas/Admin/Controllers/RequestsController.cs:37 | a permutation of the input, sorted by the key in descending order, with a missing time last |
| Listing.TotalPages | Controllers/RequestsController.cs:52 | the fewest pages of the given size that hold every item |
| Listing.PageOf | Controllers/RequestsController.cs:43-44 | rejected exactly when the 32-bit offset is negative; otherwise the items from the offset on, at most a page of them, exactly as many as remain up to the page size |
| Listing.EveryItemOnItsPage | Controllers/RequestsController.cs:40-52 | the item at position i lies on page i / size + 1, at position i mod size, and that page is within the page count |
| Listing.Where | Controllers/RequestsController.cs:22-38 | exactly the requests the filter keeps, each as often as stored |
| Listing.PageOfSortedIsSorted | Controllers/RequestsController.cs:41-45 | a page cut from a sorted list is sorted and holds only items of the list |
| Listing.ListRequests | Areas/Admin/Controllers/RequestsController.cs:23-46 | a negative offset is rejected. Otherwise the page is a slice of some descending ordering of exactly the filtered requests, holds at most a page of them and is itself sorted, and the page count covers every match |
| AdminRequestsController.Index | Areas/Admin/Controllers/RequestsController.cs:19-51 | the query is rejected exactly when the 32-bit, wrapping offset (page - 1) * 20 is negative, so not every page below one is rejected and some very large pages are. Otherwise at most 20 stored requests, newest first, all with the chosen status when one is given. The page is exactly the slice that skipping (page - 1) * 20 and taking 20 cuts from some newest-first ordering of all the matches, and the page count is the ceiling of the matches over 20 |
| AdminRequestsController.Details | Areas/Admin/Controllers/RequestsController.cs:53-69 | a request with that id of any status is found; NotFound exactly when no stored request has that id |
| AdminRequestsController.ApprovalMessageText | Areas/Admin/Controllers/RequestsController.cs:104 | the requester's message contains the title |
| AdminRequestsController.NotifyUserAboutApproval | Areas/Admin/Controllers/RequestsController.cs:99-108 | at most one console message; there is one if and only if the owner exists and has a phone, and it goes to that phone and contains the title |
| AdminRequestsController.WithStatus | Areas/Admin/Controllers/RequestsController.cs:80-85 | the status and notes become the given ones, and only an approval stamps the approval time; every other field is kept |
| AdminRequestsController.UpdateStatus | Areas/Admin/Controllers/RequestsController.cs:72-97 | an unknown id is NotFound and changes nothing. Otherwise only that request changes, whatever its current status. It gets the new status and notes and, only on approval, the new approval time. An approval writes the requester's message and then the store fan-out; any other status writes nothing |
| AdminRequestsController.NotificationsIgnoreStatus | Areas/Admin/Controllers/RequestsController.cs:99-133 | an approval's messages depend only on the request's owner, title and category ids |
| AdminRequestsController.MatchingIgnoresStatus | Areas/Admin/Controllers/RequestsController.cs:112-120 | the sellers matched depend only on the request's three category ids |
| RequestLifecycle.UpdatedRequest | Areas/Admin/Controllers/RequestsController.cs:72-97 | after an update the request is found where it was, with the new fields; users and edges are untouched, and the messages are the approval's or none |
| RequestLifecycle.ReapprovalRestamps | Areas/Admin/Controllers/RequestsController.cs:83-92 | approving an approved request again succeeds and re-stamps the approval time with the new time |
| RequestLifecycle.ReapprovalRepeatsNotifications | Areas/Admin/Controllers/RequestsController.cs:83-92 | a second approval writes the same messages as the first |
| RequestLifecycle.WithdrawnApprovalKeepsApprovedAt | Areas/Admin/Controllers/RequestsController.cs:80-85 | approving, then moving to Pending or Rejected, leaves a request that is not approved but still carries the first approval time, and the second step sends nothing |
| RequestLifecycle.UpdateStatusIdempotentOnStore | Areas/Admin/Controllers/RequestsController.cs:72-97 | repeating an update leaves the store as the first one did |
| RequestLifecycle.NewRequestHiddenButAnnounced | Controllers/RequestsController.cs:98-119 | in a valid store, the request just created is not shown by the details page, yet the stores matching it have already been alerted |
| RequestLifecycle.RecipientsIgnoreLink | Controllers/RequestsController.cs:143-153 | the store messages go to the same numbers in the same order whatever link they carry |
| RequestLifecycle.ApprovalOfNewRequest | Areas/Admin/Controllers/RequestsController.cs:83-92 | approving the request just created writes the requester's message and then the store messages, with the placeholder link |
| RequestLifecycle.StoresAlertedOnCreateAndOnApproval | Areas/Admin/Controllers/RequestsController.cs:110-133 | creating and then approving a request alerts the same stores twice: after the requester's message, the approval's store messages go, one for one, to the numbers creation already wrote to |
| CategoryModels.NewCategory | Models/Category.cs:6-22 | a new category is active, with no description, and stamped with the given time |
| CategoryModels.NewSubCategory1 | Models/Category.cs:24-41 | a new SubCategory1 is active and its only parent is the given category |
| CategoryModels.NewSubCategory2 | Models/Category.cs:43-59 | a new SubCategory2 is active and its only parent is the given SubCategory1 |
| CategoryModels.ActiveCategories | Controllers/RequestsController.cs:50 | exactly the active categories |
| CategoryModels.ActiveChildrenOfCategory | Controllers/RequestsController.cs:160-163 | exactly the (id, name) pairs of the active children of the category |
| CategoryModels.ActiveChildrenOfSubCategory1 | Controllers/RequestsController.cs:171-174 | exactly the (id, name) pairs of the active children of the SubCategory1 |
| CategoryModels.Parent | Models/Category.cs:31 | a node's parent is one level up: the category a stored SubCategory1 names, or the SubCategory1 a stored SubCategory2 names; a category has none |
| CategoryModels.Ancestors | Models/Category.cs:31 | the ancestor chain climbs one level per step, so it is at most two long |
| StoreInvariants.ParentOfStoredSubCategory1 | Models/Category.cs:31 | in a table with unique keys, a stored SubCategory1's parent is the category its CategoryId names |
| StoreInvariants.ParentOfStoredSubCategory2 | Models/Category.cs:50 | in a table with unique keys, a stored SubCategory2's parent is the SubCategory1 its SubCategory1Id names |
| StoreInvariants.LinkedSubCategory1ReachesCategory | Models/Category.cs:31-38 | in a store with unique keys and no dangling links, a stored SubCategory1's ancestor chain is exactly one stored category |
| StoreInvariants.LinkedSubCategory2ReachesCategory | Models/Category.cs:50-57 | in a store with unique keys and no dangling links, a stored SubCategory2's ancestor chain is exactly its stored SubCategory1 and then that one's stored category |
| AdminCategoriesController.NameLeTotal | Areas/Admin/Controllers/CategoriesController.cs:23 | any two names are comparable in the ordinal order |
| AdminCategoriesController.NameLeTransitive | Areas/Admin/Controllers/CategoriesController.cs:23 | the ordinal order on names is transitive |
| AdminCategoriesController.InsertByName | Areas/Admin/Controllers/CategoriesController.cs:23 | inserting into a name-sorted list keeps it sorted and adds exactly the one category |
| AdminCategoriesController.OrderByName | Areas/Admin/Controllers/CategoriesController.cs:23 | a permutation of the categories sorted by name |
| AdminCategoriesController.Index | Areas/Admin/Controllers/CategoriesController.cs:18-27 | every category, active or not, exactly once each, ordered by name |
| AdminCategoriesController.Create | Areas/Admin/Controllers/CategoriesController.cs:35-47 | a valid category is appended under the next identity and the browser goes to the list; otherwise nothing changes and the form is redisplayed |
| AdminCategoriesController.CreateSubCategory1Page | Areas/Admin/Controllers/CategoriesController.cs:76-89 | NotFound exactly when no stored category has that id; otherwise an active form whose parent is that category |
| AdminCategoriesController.CreateSubCategory1 | Areas/Admin/Controllers/CategoriesController.cs:91-106 | a valid record is appended under the next identity without checking its parent; otherwise nothing changes |
| AdminCategoriesController.CreateSubCategory2Page | Areas/Admin/Controllers/CategoriesController.cs:108-125 | NotFound exactly when no stored SubCategory1 has that id; otherwise an active form whose parent is that SubCategory1 |
| AdminCategoriesController.CreateSubCategory2 | Areas/Admin/Controllers/CategoriesController.cs:127-145 | a valid record is appended under the next identity without checking its parent; otherwise nothing changes |
| AdminCategoriesController.RemoveCategory | Areas/Admin/Controllers/CategoriesController.cs:150-155 | an absent id leaves the list as it was; otherwise one element fewer, every other category kept and nothing new added |
| AdminCategoriesController.Delete | Areas/Admin/Controllers/CategoriesController.cs:147-158 | always back to the list; an absent id changes nothing. A present one removes exactly one category and leaves every other category and every other table untouched |
| StoreInvariants.CategoryCreateKeepsValid | Areas/Admin/Controllers/CategoriesController.cs:35-47 | creating a category keeps every table's ids unique and below its counter |
| StoreInvariants.SubCategory1CreateKeepsValid | Areas/Admin/Controllers/CategoriesController.cs:91-106 | creating a SubCategory1 keeps ids unique and below their counters |
| StoreInvariants.SubCategory2CreateKeepsValid | Areas/Admin/Controllers/CategoriesController.cs:127-145 | creating a SubCategory2 keeps ids unique and below their counters |
| StoreInvariants.DeleteKeepsValid | Areas/Admin/Controllers/CategoriesController.cs:147-158 | deleting keeps ids unique and below their counters, and leaves no category with the deleted id |
| StoreInvariants.RequestCreateKeepsValid | Controllers/RequestsController.cs:87-127 | creating a request keeps ids unique and below their counters |
| StoreInvariants.UpdateStatusKeepsValid | Areas/Admin/Controllers/RequestsController.cs:72-97 | a status update keeps ids unique and below their counters |
| StoreInvariants.CreateAccountKeepsValid | Controllers/AccountController.cs:185-284 | registration keeps ids unique and below their counters, edges included |
| StoreInvariants.CategoryCreateKeepsLinked | Areas/Admin/Controllers/CategoriesController.cs:35-47 | creating a category keeps every sub-category's parent stored |
| StoreInvariants.SubCategory1CreateKeepsLinked | Areas/Admin/Controllers/CategoriesController.cs:91-106 | a SubCategory1 posted under a stored category keeps every parent link intact |
| StoreInvariants.SubCategory1CreateAcceptsMissingParent | Areas/Admin/Controllers/CategoriesController.cs:76-106 | in the model, which enforces no foreign keys, the GET page refuses a missing parent category while the POST, which looks up no parent, stores a SubCategory1 naming it and leaves a dangling link (the database's required foreign key would reject that insert) |
| StoreInvariants.SubCategory2CreateAcceptsMissingParent | Areas/Admin/Controllers/CategoriesController.cs:108-145 | in the model, which enforces no foreign keys, the GET page refuses a missing parent SubCategory1 while the POST, which looks up no parent, stores a SubCategory2 naming it and leaves a dangling link (the database's required foreign key would reject that insert) |
| StoreInvariants.FreshCategoryHasNoChildren | Models/Category.cs:20 | in a valid, linked store, a category just created has no sub-categories to offer |
| StoreInvariants.DeleteOrphansChildren | Areas/Admin/Controllers/CategoriesController.cs:147-158 | in the model, which enforces no foreign keys or cascades, deleting a category that has a SubCategory1 leaves that SubCategory1 without a stored parent (the database would cascade or reject the delete) |
| Text.TrimStart | Controllers/AccountController.cs:40 | the result is a suffix of the input, everything dropped is the trimmed character, and the result does not start with it |
| Text.Utf16Length | Models/ViewModels/AccountViewModels.cs:20 | the length in UTF-16 units is between one and two per character, and equals the character count inside the Basic Multilingual Plane |
| Text.DecimalRoundTrip | Controllers/AccountController.cs:337 | formatting a number in decimal and parsing it back gives the number |
| Text.FourDigitString | Controllers/AccountController.cs:337 | every number from 1000 to 9999 prints as exactly four digits |
| Text.ToLowerAscii | Controllers/AccountController.cs:349 | same length, with each ASCII capital replaced by its small letter and everything else kept |

## Left out

- Entity Framework Core and the database are not part of this model; an in-memory store of sequences with one identity counter per table stands in for them. The `ApplicationDbContext` configuration is not part of this model either. Foreign keys are therefore not enforced, so a sub-category posted under a missing parent is stored, as `StoreInvariants.SubCategory1CreateAcceptsMissingParent` shows. Cascade rules on delete are not modelled.
- Two registrations racing between the phone or e-mail lookup and the insert: a concurrency matter, left out.
- Database collation: `Contains` in the search box, and the phone and e-mail lookups, are modelled as ordinal (case-sensitive) comparisons.
- File and console I/O: the file write of the profile image, the log-file append, the console line and the delay inside the send, and the logger. A send is an abstract operation; its failure is a parameter.
- The commented-out HTTP client in `Services/WhatsAppService.cs`, and `Services/IWhatsAppService.cs`, which only declares the channel's signatures.
- `DateTime.Now`, `Random` and `Guid.NewGuid()` are parameters: an opaque time, a draw in [1000, 9998], and the stored file name.
- MVC plumbing: `ModelState` messages, antiforgery, `ViewBag` and `TempData` text, and `Url.Action`. The request link is an opaque string.
- `[Phone]`, `[EmailAddress]` and `[Url]`, and model binding failures: their combined verdict is the `attributesOk` parameter of each action.
- The implicit `[Required]` that MVC adds to non-nullable reference properties is modelled for the login form's `CountryCode`. For the entity navigation properties `SubCategory1.Category` and `SubCategory2.SubCategory1` it is folded into `attributesOk`. Unless the posted form binds that parent object, validation fails and `AdminCategoriesController.CreateSubCategory1` or `AdminCategoriesController.CreateSubCategory2` shows the form again. The model's statements about those POSTs are about the case where binding and validation succeed.
- The images of a request, which `Create` leaves unhandled in the source as well.
- The `Edit` actions and the GET `Create` page of the category controller, and the GET `Create` page of the request controller: they only show or overwrite a posted record.
- `Program.cs`, `HomeController`, `DashboardController`, `AdvertisementsController` and `AdminViewModels`: wiring, seed data and read-only pages. The 30-minute session idle timeout is modelled only as the `SessionExpiry` visit, which empties the session.
- AdminCategoriesController.OrderByName: names are ordered by Unicode scalar value, which is .NET's ordinal (UTF-16 code unit) order inside the Basic Multilingual Plane. The two differ when a character outside that plane meets one from U+E000 to U+FFFF: ordinal order puts the surrogate pair first, as with "😀" against U+FE8D. The database sorts by its column collation, which may be case-insensitive and orders Arabic letters differently. So, for example, "B" is listed before "a" here, and a case-insensitive collation would list "a" first. `AdminCategoriesController.Index` inherits this.
- Sessions.GetString: a session value carries a type tag, and reading a string finds nothing under a key written as an integer. ASP.NET keeps bytes and decodes any stored value as UTF-8. No controller reads a key as a string that it wrote as an integer, so no modelled result depends on this.
- Sessions.GetInt32: likewise, reading an integer finds nothing under a key written as a string, where ASP.NET reads any value of four or more bytes. `UserId` is the only key written and read as an integer.
- RequestLifecycle.StoresAlertedOnCreateAndOnApproval: states that the two alerts go to the same numbers in the same order. That order comes from `Matching.Distinct` keeping first occurrences. SQL `DISTINCT` fixes no order, and the two alerts are separate queries, so in the program only the set of numbers is promised to repeat.
- Ids are unbounded integers: the 32-bit identity columns never overflow in the model.
- Text.IsRegexDigit: lists the main Unicode decimal-digit blocks (ASCII, Arabic-Indic, the Indic scripts, Thai, Lao, Tibetan, Myanmar, Khmer, Mongolian, NKo and fullwidth) rather than every Nd block, so `FourDigitCode` may reject codes in rarer scripts that .NET accepts.
- Text.ToLowerAscii: lower-cases ASCII letters only, where `ToLowerInvariant` also lower-cases other scripts. Every allowed extension is ASCII, but a non-ASCII capital whose invariant lower case is an ASCII letter (U+0130, for one) may make .NET accept a name the model rejects.
- AccountController.GetExtension: treats both '/' and '\\' as directory separators, as on Windows, and does not reject characters that are invalid in a path.
- Listing.ListRequests: the order among requests with equal sort keys is left open (the database does not fix it), so the page is stated as a slice of some sorted permutation rather than of one particular one.
- AccountController.SaveProfileImage: an exception while writing the file is not modelled, so an accepted image always gets a path.
- The controllers are modelled as written: `RequestsController.Create` and `AdminRequestsController.UpdateStatus` use `Matching.NullsEqual`, and the account actions use the Login as written. The corrected matching clause and the corrected Login live beside them, in `Matching.EdgeMatchesIntended` and `VerificationRuns.LoginResettingVerification`. Those two are the subject of the findings below.
- One might expect a request naming only a category to reach exactly that category's stores. The code does not do that; the model follows the code, as the second finding below records.

## Findings

| source | as written | input that shows it | evidently intended | confidence | as-written member | corrected member |
|---|---|---|---|---|---|---|
| Controllers/AccountController.cs:35-78 | Login writes only OTP or VerificationCode, PhoneNumber and LoginType, so a PhoneVerified="true" from an earlier verification survives it; CreateAccount (lines 189-196) trusts that flag for whatever number is now pending | Login with unregistered number A, VerifyPhone with A's code, Login with unregistered number B, then CreateAccount: B is registered with IsPhoneVerified=true although B's code was never submitted | a new Login clears the verification keys of any earlier flow, so a number is marked verified only by submitting the code last sent to it | high; not executed | VerificationRuns.AsWrittenRegistersUnverifiedNumber | VerificationRuns.ResettingRunVerifiesLatestCode |
| Controllers/RequestsController.cs:134-136 | the sub-category ids are compared with C#'s lifted `int?` equality, under which null equals null, so an edge without sub-category ids matches every request without them, in any category; the administrator's fan-out (Areas/Admin/Controllers/RequestsController.cs:114-116) is the same | a seller registered for category 1 (an edge with only CategoryId=1) and a request in category 2 with no sub-categories: the seller is alerted | compare a sub-category id only when the request names one, so a category-only request reaches the stores of its own category | medium (rests on EF Core's default C# null semantics in the query); not executed | MatchingProperties.AsWrittenReachesOtherCategories | MatchingProperties.IntendedCategoryOnlySellers |

=== FILE: account_controller.dfy ===
/**
 * The phone-verification and registration state machine. Every action is a
 * pure step from (session, store) to (session', store', messages, result).
 * The clock, the random code and the stored file name are parameters.
 */
module AccountController {
  import opened Wrappers
  import opened Text
  import opened Sessions
  import opened Entities
  import opened CategoryModels
  import opened AccountViewModels
  import opened WhatsApp
  import opened Mvc

  /** What `new Random().Next(1000, 9999)` can return: 1000 to 9998. */
  type OtpDraw = n: int | 1000 <= n <= 9998 witness 1000

  /** `GenerateOTP`: the decimal text of the draw, always four ASCII digits. */
  function GenerateOtp(draw: OtpDraw): (code: string)
    ensures |code| == 4 && forall i :: 0 <= i < 4 ==> IsAsciiDigit(code[i])
    ensures DecimalValue(code) == draw
    ensures FourDigitCode(code)
  {
    FourDigitString(draw);
    DecimalRoundTrip(draw);
    var code := DecimalString(draw);
    FourDigitCodeIsFourDigits(code);
    code
  }

  /**
   * The number Login looks up and stores: the country code followed by the
   * entered number with every leading '0' removed.
   */
  function NormalizePhone(countryCode: string, phoneNumber: string): (r: string)
    ensures |countryCode| <= |r| && r[..|countryCode|] == countryCode
    ensures var rest := r[|countryCode|..];
      && |rest| <= |phoneNumber|
      && rest == phoneNumber[|phoneNumber| - |rest|..]
      && (forall i :: 0 <= i < |phoneNumber| - |rest| ==> phoneNumber[i] == '0')
      && (rest == [] || rest[0] != '0')
  {
    var rest := TrimStart(phoneNumber, '0');
    assert (countryCode + rest)[|countryCode|..] == rest;
    countryCode + rest
  }

  /** `LoginUserAsync`: writes the four sign-in keys and nothing else. */
  function SignIn(s: Session, u: User): (r: Session)
    ensures GetInt32(r, UserIdKey) == Some(u.id)
    ensures GetString(r, UserNameKey) == Some(u.profile.firstName + " " + u.profile.lastName)
    ensures GetString(r, UserTypeKey) == Some(UserTypeName(u.userType))
    ensures GetString(r, IsLoggedInKey) == Some("true")
    ensures SameOutside(s, r, SignInKeys)
  {
    s[UserIdKey := Int32(u.id)]
     [UserNameKey := Text(u.profile.firstName + " " + u.profile.lastName)]
     [UserTypeKey := Text(UserTypeName(u.userType))]
     [IsLoggedInKey := Text("true")]
  }

  /** `ClearVerificationSession`: removes the five verification keys and nothing else. */
  function ClearVerification(s: Session): (r: Session)
    ensures forall k :: k in VerificationKeys ==> k !in r
    ensures SameOutside(s, r, VerificationKeys)
  {
    s - VerificationKeys
  }

  /** A completed sign-in: the user's keys written, the verification keys gone. */
  function CompleteSignIn(s: Session, u: User): (r: Session)
    ensures forall k :: k in VerificationKeys ==> k !in r
    ensures GetInt32(r, UserIdKey) == Some(u.id)
    ensures GetString(r, UserNameKey) == Some(u.profile.firstName + " " + u.profile.lastName)
    ensures GetString(r, UserTypeKey) == Some(UserTypeName(u.userType))
    ensures GetString(r, IsLoggedInKey) == Some("true")
    ensures SameOutside(s, r, VerificationKeys + SignInKeys)
  {
    ClearVerification(SignIn(s, u))
  }

  /** The keys Login writes for a registered number. */
  function PendingLogin(session: Session, phone: string, code: string): (r: Session)
    ensures GetString(r, OtpKey) == Some(code)
    ensures GetString(r, PhoneNumberKey) == Some(phone)
    ensures GetString(r, LoginTypeKey) == Some("ExistingUser")
    ensures SameOutside(session, r, {OtpKey, PhoneNumberKey, LoginTypeKey})
  {
    session[OtpKey := Text(code)][PhoneNumberKey := Text(phone)][LoginTypeKey := Text("ExistingUser")]
  }

  /** The keys Login writes for an unknown number. */
  function PendingRegistration(session: Session, phone: string, code: string): (r: Session)
    ensures GetString(r, VerificationCodeKey) == Some(code)
    ensures GetString(r, PhoneNumberKey) == Some(phone)
    ensures GetString(r, LoginTypeKey) == Some("NewUser")
    ensures SameOutside(session, r, {VerificationCodeKey, PhoneNumberKey, LoginTypeKey})
  {
    session[VerificationCodeKey := Text(code)][PhoneNumberKey := Text(phone)][LoginTypeKey := Text("NewUser")]
  }

  /** The GET of Login: an empty form with the default country code. */
  function LoginPage(): (f: LoginForm)
    ensures f.countryCode == "+964" && f.phoneNumber == ""
  {
    NewLoginForm()
  }

  /**
   * POST Login. A registered number gets a login code, an unknown number a
   * registration code; either way exactly one code message goes to the
   * normalised number, no user is created, and only three keys are written.
   */
  function Login(session: Session, store: Store, form: LoginForm, attributesOk: bool, draw: OtpDraw): (r: Step)
    ensures r.store == store
    ensures !(LoginFormValid(form) && attributesOk) ==>
      r.session == session && r.outbox == [] && r.outcome == Redisplay(AttributeErrors)
    ensures LoginFormValid(form) && attributesOk ==>
      var phone := NormalizePhone(form.countryCode, form.phoneNumber);
      var code := GenerateOtp(draw);
      && |r.outbox| == 1
      && r.outbox[0].channel == WhatsAppChannel && r.outbox[0].to == phone
      && Text.Contains(r.outbox[0].text, code)
      && GetString(r.session, PhoneNumberKey) == Some(phone)
      && (FindUserByPhone(store.users, phone).Some? ==>
            && GetString(r.session, OtpKey) == Some(code)
            && GetString(r.session, LoginTypeKey) == Some("ExistingUser")
            && SameOutside(session, r.session, {OtpKey, PhoneNumberKey, LoginTypeKey})
            && r.outcome == RedirectTo(AccountVerifyOtp))
      && (FindUserByPhone(store.users, phone).None? ==>
            && GetString(r.session, VerificationCodeKey) == Some(code)
            && GetString(r.session, LoginTypeKey) == Some("NewUser")
            && SameOutside(session, r.session, {VerificationCodeKey, PhoneNumberKey, LoginTypeKey})
            && r.outcome == RedirectTo(AccountVerifyPhone))
  {
    if !(LoginFormValid(form) && attributesOk) then
      Step(session, store, [], Redisplay(AttributeErrors))
    else
      var phone := NormalizePhone(form.countryCode, form.phoneNumber);
      var code := GenerateOtp(draw);
      var sent := [OtpMessage(phone, code)];
      if FindUserByPhone(store.users, phone).Some? then
        Step(PendingLogin(session, phone, code), store, sent, RedirectTo(AccountVerifyOtp))
      else
        Step(PendingRegistration(session, phone, code), store, sent, RedirectTo(AccountVerifyPhone))
  }

  /** The user the session's phone number belongs to (none when the number is absent). */
  function SessionUser(session: Session, store: Store): (r: Option<User>)
    ensures r.Some? ==> r.value in store.users && Some(r.value.phoneNumber) == GetString(session, PhoneNumberKey)
    ensures r.None? ==> (GetString(session, PhoneNumberKey).None?
      || forall u :: u in store.users ==> u.phoneNumber != GetString(session, PhoneNumberKey).value)
  {
    match GetString(session, PhoneNumberKey)
    case None => None
    case Some(phone) => FindUserByPhone(store.users, phone)
  }

  /** The GET of VerifyOTP: back to Login unless a phone number is pending. */
  function VerifyOtpPage(session: Session): (o: Outcome)
    ensures o == RedirectTo(AccountLogin) <==> IsNullOrEmpty(GetString(session, PhoneNumberKey))
    ensures o != RedirectTo(AccountLogin) ==> o == ShowView
  {
    if IsNullOrEmpty(GetString(session, PhoneNumberKey)) then RedirectTo(AccountLogin) else ShowView
  }

  /**
   * POST VerifyOTP. Succeeds exactly when the code equals the stored `OTP`
   * and a user owns the session's number; `LoginType` is not consulted. On
   * failure nothing changes, so the same code can be tried again.
   */
  function VerifyOtp(session: Session, store: Store, form: VerifyOtpForm, attributesOk: bool): (r: Step)
    ensures r.store == store && r.outbox == []
    ensures r.outcome == RedirectTo(HomeIndex) <==>
      && VerifyOtpFormValid(form) && attributesOk
      && GetString(session, OtpKey) == Some(form.otp)
      && SessionUser(session, store).Some?
    ensures r.outcome == RedirectTo(HomeIndex) ==>
      var u := SessionUser(session, store).value;
      && r.session == CompleteSignIn(session, u)
      && GetInt32(r.session, UserIdKey) == Some(u.id)
      && Some(u.phoneNumber) == GetString(session, PhoneNumberKey)
    ensures r.outcome != RedirectTo(HomeIndex) ==> (r.session == session
      && r.outcome == Redisplay(if VerifyOtpFormValid(form) && attributesOk then CodeMismatch else AttributeErrors))
  {
    if !(VerifyOtpFormValid(form) && attributesOk) then
      Step(session, store, [], Redisplay(AttributeErrors))
    else if GetString(session, OtpKey) == Some(form.otp) && SessionUser(session, store).Some? then
      Step(CompleteSignIn(session, SessionUser(session, store).value), store, [], RedirectTo(HomeIndex))
    else
      Step(session, store, [], Redisplay(CodeMismatch))
  }

  /** The GET of VerifyPhone: back to Login unless a new-user number is pending. */
  function VerifyPhonePage(session: Session): (o: Outcome)
    ensures o == ShowView <==>
      !IsNullOrEmpty(GetString(session, PhoneNumberKey)) && GetString(session, LoginTypeKey) == Some("NewUser")
    ensures o != ShowView ==> o == RedirectTo(AccountLogin)
  {
    if IsNullOrEmpty(GetString(session, PhoneNumberKey)) || GetString(session, LoginTypeKey) != Some("NewUser") then
      RedirectTo(AccountLogin)
    else ShowView
  }

  /**
   * POST VerifyPhone. A code equal to the stored `VerificationCode` sets
   * `PhoneVerified` to "true" and touches nothing else; any other code
   * changes nothing. Unlike the GET, the POST does not look at `LoginType`.
   */
  function VerifyPhone(session: Session, store: Store, form: VerifyPhoneForm, attributesOk: bool): (r: Step)
    ensures r.store == store && r.outbox == []
    ensures r.outcome == RedirectTo(AccountCreate) <==>
      VerifyPhoneFormValid(form) && attributesOk && GetString(session, VerificationCodeKey) == Some(form.verificationCode)
    ensures r.outcome == RedirectTo(AccountCreate) ==>
      GetString(r.session, PhoneVerifiedKey) == Some("true") && SameOutside(session, r.session, {PhoneVerifiedKey})
    ensures r.outcome != RedirectTo(AccountCreate) ==> (r.session == session
      && r.outcome == Redisplay(if VerifyPhoneFormValid(form) && attributesOk then CodeMismatch else AttributeErrors))
  {
    if !(VerifyPhoneFormValid(form) && attributesOk) then
      Step(session, store, [], Redisplay(AttributeErrors))
    else if GetString(session, VerificationCodeKey) == Some(form.verificationCode) then
      Step(session[PhoneVerifiedKey := Text("true")], store, [], RedirectTo(AccountCreate))
    else
      Step(session, store, [], Redisplay(CodeMismatch))
  }

  /** The session has a pending number that has been marked verified. */
  predicate VerifiedPhonePending(session: Session) {
    !IsNullOrEmpty(GetString(session, PhoneNumberKey)) && GetString(session, PhoneVerifiedKey) == Some("true")
  }

  /** The GET of CreateAccount: back to Login unless a verified number is pending. */
  function CreateAccountPage(session: Session): (o: Outcome)
    ensures o == ShowView <==> VerifiedPhonePending(session)
    ensures o != ShowView ==> o == RedirectTo(AccountLogin)
  {
    if VerifiedPhonePending(session) then ShowView else RedirectTo(AccountLogin)
  }

  const AllowedImageExtensions: set<string> := {".jpg", ".jpeg", ".png", ".gif"}
  const MaxImageBytes: nat := 5 * 1024 * 1024

  predicate IsDirectorySeparator(c: char) {
    c == '/' || c == '\\'
  }

  /**
   * `k` is the position of the extension's '.': the last '.' of the last
   * path segment, with at least one character after it.
   */
  ghost predicate ExtensionDot(path: string, k: int) {
    && 0 <= k < |path| - 1
    && path[k] == '.'
    && forall j :: k < j < |path| ==> path[j] != '.' && !IsDirectorySeparator(path[j])
  }

  /** `Path.GetExtension`, scanning leftwards from position `i`. */
  function ExtensionFrom(path: string, i: int): (r: string)
    requires -1 <= i < |path|
    requires forall j :: i < j < |path| ==> path[j] != '.' && !IsDirectorySeparator(path[j])
    ensures r != [] <==> exists k :: ExtensionDot(path, k)
    ensures forall k :: ExtensionDot(path, k) ==> r == path[k..]
    decreases i + 1
  {
    if i < 0 then ""
    else if path[i] == '.' then
      if i != |path| - 1 then assert ExtensionDot(path, i); path[i..] else ""
    else if IsDirectorySeparator(path[i]) then ""
    else ExtensionFrom(path, i - 1)
  }

  /**
   * `Path.GetExtension`: from the last '.' of the last path segment to the
   * end, or "" when there is none or the name ends with the '.'.
   */
  function GetExtension(path: string): (r: string)
    ensures r != [] <==> exists k :: ExtensionDot(path, k)
    ensures forall k :: ExtensionDot(path, k) ==> r == path[k..]
    ensures r == [] || (2 <= |r| <= |path| && r[0] == '.' && r == path[|path| - |r|..])
    ensures forall j :: 1 <= j < |r| ==> r[j] != '.' && !IsDirectorySeparator(r[j])
  {
    ExtensionIsSuffix(path);
    ExtensionFrom(path, |path| - 1)
  }

  /** A found extension is the suffix from its dot: a '.' followed by at least one plain character. */
  lemma ExtensionIsSuffix(path: string)
    ensures var r := ExtensionFrom(path, |path| - 1);
      r == [] || (2 <= |r| <= |path| && r[0] == '.' && r == path[|path| - |r|..]
        && forall j :: 1 <= j < |r| ==> r[j] != '.' && !IsDirectorySeparator(r[j]))
  {
    if ExtensionFrom(path, |path| - 1) != [] {
      var k :| ExtensionDot(path, k);
    }
  }

  /** A file named `stem` + "." + `ext`, where `ext` is a plain non-empty word, has the extension "." + `ext`. */
  lemma ExtensionOfNamedFile(stem: string, ext: string)
    requires |ext| >= 1
    requires forall j :: 0 <= j < |ext| ==> ext[j] != '.' && !IsDirectorySeparator(ext[j])
    ensures GetExtension(stem + "." + ext) == "." + ext
  {
    var path := stem + "." + ext;
    assert path[|stem|..] == "." + ext;
    assert forall j :: |stem| < j < |path| ==> path[j] == ext[j - |stem| - 1];
    assert ExtensionDot(path, |stem|);
  }

  /** The checks `SaveProfileImageAsync` makes before it writes the file. */
  predicate ImageAccepted(image: Upload) {
    && image.length != 0
    && ToLowerAscii(GetExtension(image.fileName)) in AllowedImageExtensions
    && image.length <= MaxImageBytes
  }

  /**
   * The stored path of an accepted profile image, named after `storedName`
   * (a fresh GUID) and the lower-cased extension; a rejected image gives none.
   */
  function SaveProfileImage(image: Upload, storedName: string): (r: Option<string>)
    ensures r.Some? <==> ImageAccepted(image)
    ensures r.Some? ==> Text.Contains(r.value, storedName)
  {
    if ImageAccepted(image) then
      var ext := ToLowerAscii(GetExtension(image.fileName));
      Text.ContainsMiddle("/uploads/profiles/", storedName, ext);
      Some("/uploads/profiles/" + storedName + ext)
    else None
  }

  /** One specialty edge per listed category id, with only `CategoryId` set. */
  function NewStoreCategories(userId: int, ids: seq<int>, firstId: int, now: int): (es: seq<StoreCategory>)
    ensures |es| == |ids|
    ensures forall i :: 0 <= i < |ids| ==>
      es[i] == StoreCategory(firstId + i, userId, Some(ids[i]), None, None, now)
  {
    if |ids| == 0 then []
    else
      [StoreCategory(firstId, userId, Some(ids[0]), None, None, now)]
      + NewStoreCategories(userId, ids[1..], firstId + 1, now)
  }

  /** The category ids to record: only for a seller who listed at least one. */
  function ListedStoreCategories(form: CreateAccountForm): (ids: seq<int>)
    ensures |ids| > 0 ==> form.userType == Seller && form.storeCategories == Some(ids)
    ensures form.userType == Seller && form.storeCategories.Some? ==> ids == form.storeCategories.value
  {
    if form.userType == Seller && form.storeCategories.Some? && |form.storeCategories.value| > 0 then
      form.storeCategories.value
    else []
  }

  /** The outcome of a registration attempt before anything is written. */
  function RegistrationRefusal(session: Session, store: Store, form: CreateAccountForm, attributesOk: bool): Option<Outcome> {
    if !(CreateAccountFormValid(form) && attributesOk) then Some(Redisplay(AttributeErrors))
    else if !VerifiedPhonePending(session) then Some(RedirectTo(AccountLogin))
    else if FindUserByPhone(store.users, GetString(session, PhoneNumberKey).value).Some? then Some(RedirectTo(AccountLogin))
    else if form.profile.email.Some? && form.profile.email.value != ""
      && EmailInUse(store.users, form.profile.email.value) then Some(Redisplay(EmailTaken))
    else None
  }

  /** The user a successful registration inserts. */
  function NewUser(session: Session, store: Store, form: CreateAccountForm, now: int, storedName: string): User
    requires VerifiedPhonePending(session)
  {
    var image := if form.profileImage.Some? then SaveProfileImage(form.profileImage.value, storedName) else None;
    User(store.nextUserId, GetString(session, PhoneNumberKey).value, form.profile, form.userType, true, image, now)
  }

  /**
   * POST CreateAccount. Creates nothing when the session has no verified
   * number, when the number or a non-empty e-mail is already registered, or
   * when the form is invalid. Otherwise inserts one phone-verified user for
   * the session's number, one edge per listed category for a seller, signs
   * the user in and clears the verification keys.
   */
  function CreateAccount(session: Session, store: Store, form: CreateAccountForm, attributesOk: bool,
                         now: int, storedName: string): (r: Step)
    ensures r.outbox == []
    ensures !(CreateAccountFormValid(form) && attributesOk) ==>
      r.session == session && r.store == store && r.outcome == Redisplay(AttributeErrors)
    ensures CreateAccountFormValid(form) && attributesOk && !VerifiedPhonePending(session) ==>
      r.session == session && r.store == store && r.outcome == RedirectTo(AccountLogin)
    ensures (VerifiedPhonePending(session)
      && FindUserByPhone(store.users, GetString(session, PhoneNumberKey).value).Some?) ==>
      r.session == session && r.store == store && r.outcome != RedirectTo(HomeIndex)
    ensures (VerifiedPhonePending(session) && form.profile.email.Some? && form.profile.email.value != ""
      && EmailInUse(store.users, form.profile.email.value)) ==>
      r.session == session && r.store == store && r.outcome != RedirectTo(HomeIndex)
    ensures (CreateAccountFormValid(form) && attributesOk && VerifiedPhonePending(session)
      && FindUserByPhone(store.users, GetString(session, PhoneNumberKey).value).Some?) ==>
      r.outcome == RedirectTo(AccountLogin)
    ensures (CreateAccountFormValid(form) && attributesOk && VerifiedPhonePending(session)
      && FindUserByPhone(store.users, GetString(session, PhoneNumberKey).value).None?
      && form.profile.email.Some? && form.profile.email.value != ""
      && EmailInUse(store.users, form.profile.email.value)) ==>
      r.outcome == Redisplay(EmailTaken)
    ensures (CreateAccountFormValid(form) && attributesOk && VerifiedPhonePending(session)
      && FindUserByPhone(store.users, GetString(session, PhoneNumberKey).value).None?
      && !(form.profile.email.Some? && form.profile.email.value != "" && EmailInUse(store.users, form.profile.email.value))) ==>
      r.outcome == RedirectTo(HomeIndex)
    ensures r.outcome != RedirectTo(HomeIndex) ==> r.session == session && r.store == store
    ensures r.outcome == RedirectTo(HomeIndex) ==>
      && VerifiedPhonePending(session)
      && var phone := GetString(session, PhoneNumberKey).value;
      && (forall u :: u in store.users ==> u.phoneNumber != phone)
      && |r.store.users| == |store.users| + 1
      && r.store.users[..|store.users|] == store.users
      && var u := r.store.users[|store.users|];
      && u.phoneNumber == phone && u.isPhoneVerified && u.profile == form.profile && u.userType == form.userType
      && u.createdAt == now
      && (u.profileImage.Some? <==> form.profileImage.Some? && ImageAccepted(form.profileImage.value))
      && (form.profileImage.Some? ==> u.profileImage == SaveProfileImage(form.profileImage.value, storedName))
      && u.id == store.nextUserId
      && r.session == CompleteSignIn(session, u)
      && var ids := ListedStoreCategories(form);
      && r.store == store.(
           users := store.users + [u],
           nextUserId := store.nextUserId + 1,
           storeCategories := store.storeCategories + NewStoreCategories(u.id, ids, store.nextStoreCategoryId, now),
           nextStoreCategoryId := store.nextStoreCategoryId + |ids|)
  {
    match RegistrationRefusal(session, store, form, attributesOk)
    case Some(o) => Step(session, store, [], o)
    case None =>
      var u := NewUser(session, store, form, now, storedName);
      var ids := ListedStoreCategories(form);
      var st := store.(
        users := store.users + [u],
        nextUserId := store.nextUserId + 1,
        storeCategories := store.storeCategories + NewStoreCategories(u.id, ids, store.nextStoreCategoryId, now),
        nextStoreCategoryId := store.nextStoreCategoryId + |ids|);
      Step(CompleteSignIn(session, u), st, [], RedirectTo(HomeIndex))
  }

  /** GET ResendCode: sends nothing and changes nothing; every path leads back to Login. */
  function ResendCode(session: Session, store: Store): (r: Step)
    ensures r.session == session && r.store == store && r.outbox == []
    ensures r.outcome == RedirectTo(AccountLogin)
  {
    if IsNullOrEmpty(GetString(session, PhoneNumberKey)) then Step(session, store, [], RedirectTo(AccountLogin))
    else if GetString(session, LoginTypeKey) == Some("ExistingUser") then Step(session, store, [], RedirectTo(AccountLogin))
    else Step(session, store, [], RedirectTo(AccountLogin))
  }

  /** Logout: every session key is removed. */
  function Logout(session: Session, store: Store): (r: Step)
    ensures forall k :: k !in r.session
    ensures r.store == store && r.outbox == [] && r.outcome == RedirectTo(HomeIndex)
  {
    Step(map[], store, [], RedirectTo(HomeIndex))
  }
}

=== FILE: account_properties.dfy ===
/**
 * Properties of the verification state machine that span several actions:
 * the two complete flows, retry after a wrong code, and the frame facts
 * that let a stale `PhoneVerified` flag outlive the login that set it.
 */
module AccountProperties {
  import opened Wrappers
  import opened Text
  import opened Sessions
  import opened Entities
  import opened AccountViewModels
  import opened WhatsApp
  import opened Mvc
  import opened AccountController

  /** "07701234567" entered with the default country code is stored as "+9647701234567". */
  lemma NormalizeIraqiMobile()
    ensures NormalizePhone("+964", "07701234567") == "+9647701234567"
  {
    var entered := "07701234567";
    var rest := "7701234567";
    assert entered[0] == '0' && entered[1..] == rest;
    assert rest[0] == '7';
    assert TrimStart(rest, '0') == rest;
    assert TrimStart(entered, '0') == rest;
    assert "+964" + rest == "+9647701234567";
  }

  /** All leading zeros go, not only the first. */
  lemma NormalizeStripsEveryLeadingZero()
    ensures NormalizePhone("+964", "007701234567") == "+9647701234567"
  {
    var s := "007701234567";
    assert s[0] == '0' && s[1..] == "07701234567";
    assert TrimStart(s, '0') == TrimStart("07701234567", '0');
    NormalizeIraqiMobile();
  }

  /**
   * Login writes only `OTP`/`VerificationCode`, `PhoneNumber` and
   * `LoginType`, so a `PhoneVerified` flag from an earlier flow survives it.
   */
  lemma LoginKeepsPhoneVerified(session: Session, store: Store, form: LoginForm, draw: OtpDraw)
    requires LoginFormValid(form)
    requires GetString(session, PhoneVerifiedKey) == Some("true")
    ensures GetString(Login(session, store, form, true, draw).session, PhoneVerifiedKey) == Some("true")
  {
    var r := Login(session, store, form, true, draw);
    var phone := NormalizePhone(form.countryCode, form.phoneNumber);
    if FindUserByPhone(store.users, phone).Some? {
      assert PhoneVerifiedKey !in {OtpKey, PhoneNumberKey, LoginTypeKey};
      assert r.session[PhoneVerifiedKey] == session[PhoneVerifiedKey];
    } else {
      assert PhoneVerifiedKey !in {VerificationCodeKey, PhoneNumberKey, LoginTypeKey};
      assert r.session[PhoneVerifiedKey] == session[PhoneVerifiedKey];
    }
  }

  /** Whether VerifyOTP succeeds does not depend on `LoginType`. */
  lemma VerifyOtpIgnoresLoginType(session: Session, store: Store, form: VerifyOtpForm, attributesOk: bool, loginType: Value)
    ensures VerifyOtp(session, store, form, attributesOk).outcome
         == VerifyOtp(session[LoginTypeKey := loginType], store, form, attributesOk).outcome
  {
    var other := session[LoginTypeKey := loginType];
    assert GetString(other, OtpKey) == GetString(session, OtpKey);
    assert GetString(other, PhoneNumberKey) == GetString(session, PhoneNumberKey);
  }

  /**
   * A wrong login code leaves the session as it was, so the right code
   * still works afterwards: there is no attempt limit.
   */
  lemma WrongCodeThenRightCode(session: Session, store: Store, wrong: string, right: string)
    requires GetString(session, OtpKey) == Some(right) && wrong != right
    requires VerifyOtpFormValid(VerifyOtpForm(right)) && VerifyOtpFormValid(VerifyOtpForm(wrong))
    requires SessionUser(session, store).Some?
    ensures var first := VerifyOtp(session, store, VerifyOtpForm(wrong), true);
      && first.outcome == Redisplay(CodeMismatch)
      && first.session == session
      && VerifyOtp(first.session, store, VerifyOtpForm(right), true).outcome == RedirectTo(HomeIndex)
  {
  }

  /**
   * A registered number: Login sends a code, and submitting that code signs
   * in the user who owns the number and clears the verification keys.
   */
  lemma ExistingUserSignsIn(session: Session, store: Store, form: LoginForm, draw: OtpDraw)
    requires LoginFormValid(form)
    requires FindUserByPhone(store.users, NormalizePhone(form.countryCode, form.phoneNumber)).Some?
    ensures var first := Login(session, store, form, true, draw);
      var second := VerifyOtp(first.session, store, VerifyOtpForm(GenerateOtp(draw)), true);
      var owner := FindUserByPhone(store.users, NormalizePhone(form.countryCode, form.phoneNumber)).value;
      && first.outcome == RedirectTo(AccountVerifyOtp)
      && second.outcome == RedirectTo(HomeIndex)
      && GetInt32(second.session, UserIdKey) == Some(owner.id)
      && (forall k :: k in VerificationKeys ==> k !in second.session)
  {
    var phone := NormalizePhone(form.countryCode, form.phoneNumber);
    var first := Login(session, store, form, true, draw);
    assert SessionUser(first.session, store) == FindUserByPhone(store.users, phone);
  }

  /**
   * An unknown number: Login sends a registration code, the code marks the
   * phone verified, and CreateAccount then inserts a verified user for that
   * number, signs them in with the chosen role and clears the verification keys.
   */
  lemma NewUserRegisters(session: Session, store: Store, form: LoginForm, draw: OtpDraw,
                         account: CreateAccountForm, now: int, storedName: string)
    requires LoginFormValid(form) && CreateAccountFormValid(account)
    requires var phone := NormalizePhone(form.countryCode, form.phoneNumber);
      phone != "" && forall u :: u in store.users ==> u.phoneNumber != phone
    requires account.profile.email.None?
    ensures var phone := NormalizePhone(form.countryCode, form.phoneNumber);
      var first := Login(session, store, form, true, draw);
      var second := VerifyPhone(first.session, store, VerifyPhoneForm(GenerateOtp(draw)), true);
      var third := CreateAccount(second.session, store, account, true, now, storedName);
      && first.outcome == RedirectTo(AccountVerifyPhone)
      && second.outcome == RedirectTo(AccountCreate)
      && third.outcome == RedirectTo(HomeIndex)
      && |third.store.users| == |store.users| + 1
      && third.store.users[|store.users|].phoneNumber == phone
      && third.store.users[|store.users|].isPhoneVerified
      && GetString(third.session, UserTypeKey) == Some(UserTypeName(account.userType))
      && (forall k :: k in VerificationKeys ==> k !in third.session)
  {
    var phone := NormalizePhone(form.countryCode, form.phoneNumber);
    RegistrationCodeSent(session, store, form, draw);
    var first := Login(session, store, form, true, draw);
    SentCodeVerifiesPhone(first.session, store, GenerateOtp(draw));
    var second := VerifyPhone(first.session, store, VerifyPhoneForm(GenerateOtp(draw)), true);
    assert VerifiedPhonePending(second.session);
    assert FindUserByPhone(store.users, phone).None?;
  }

  /** Login with an unknown number leaves that number and its registration code pending. */
  lemma RegistrationCodeSent(session: Session, store: Store, form: LoginForm, draw: OtpDraw)
    requires LoginFormValid(form)
    requires forall u :: u in store.users ==> u.phoneNumber != NormalizePhone(form.countryCode, form.phoneNumber)
    ensures var first := Login(session, store, form, true, draw);
      && first.outcome == RedirectTo(AccountVerifyPhone)
      && GetString(first.session, VerificationCodeKey) == Some(GenerateOtp(draw))
      && GetString(first.session, PhoneNumberKey) == Some(NormalizePhone(form.countryCode, form.phoneNumber))
  {
    assert FindUserByPhone(store.users, NormalizePhone(form.countryCode, form.phoneNumber)).None?;
  }

  /** Submitting the pending registration code marks the pending number verified and keeps it pending. */
  lemma SentCodeVerifiesPhone(s: Session, store: Store, code: string)
    requires GetString(s, VerificationCodeKey) == Some(code) && FourDigitCode(code)
    ensures var second := VerifyPhone(s, store, VerifyPhoneForm(code), true);
      && second.outcome == RedirectTo(AccountCreate)
      && GetString(second.session, PhoneVerifiedKey) == Some("true")
      && GetString(second.session, PhoneNumberKey) == GetString(s, PhoneNumberKey)
  {
    assert PhoneNumberKey !in {PhoneVerifiedKey};
  }

  /** "07701234567" as a new user, end to end: a Buyer account for "+9647701234567". */
  lemma RegistrationOfIraqiMobile(store: Store, draw: OtpDraw, account: CreateAccountForm, now: int, storedName: string)
    requires CreateAccountFormValid(account) && account.userType == Buyer && account.profile.email.None?
    requires forall u :: u in store.users ==> u.phoneNumber != "+9647701234567"
    ensures var form := LoginForm("07701234567", "+964", true);
      var first := Login(map[], store, form, true, draw);
      var second := VerifyPhone(first.session, store, VerifyPhoneForm(GenerateOtp(draw)), true);
      var third := CreateAccount(second.session, store, account, true, now, storedName);
      && third.outcome == RedirectTo(HomeIndex)
      && third.store.users[|store.users|].phoneNumber == "+9647701234567"
      && third.store.users[|store.users|].userType == Buyer
  {
    var form := LoginForm("07701234567", "+964", true);
    NormalizeIraqiMobile();
    assert !IsWhiteSpace(form.phoneNumber[0]) && !IsWhiteSpace(form.countryCode[0]);
    NewUserRegisters(map[], store, form, draw, account, now, storedName);
  }

  /**
   * A four-character code written in Arabic-Indic digits passes the form's
   * `\d{4}` check but can never equal a generated code, which is ASCII.
   */
  lemma ArabicIndicCodeNeverMatches(code: string, draw: OtpDraw)
    requires VerifyOtpFormValid(VerifyOtpForm(code))
    requires exists i :: 0 <= i < |code| && !IsAsciiDigit(code[i])
    ensures code != GenerateOtp(draw)
  {
  }

  /** The Arabic-Indic rendering of "1234" is accepted by the form. */
  lemma ArabicIndicCodeIsValid()
    ensures VerifyOtpFormValid(VerifyOtpForm("١٢٣٤"))
  {
    var s := "١٢٣٤";
    assert !IsWhiteSpace(s[0]);
    assert forall i :: 0 <= i < 4 ==> IsRegexDigit(s[i]);
    FourDigitCodeIsFourDigits(s);
  }
}

=== FILE: account_view_models.dfy ===
/**
 * The account forms and the validation their attributes perform before an
 * action body runs (`ModelState.IsValid`). Attributes whose rules live in
 * the framework (`[Phone]`, `[EmailAddress]`, `[Url]`) are not modelled;
 * the actions take their combined verdict as a separate boolean.
 */
module AccountViewModels {
  import opened Wrappers
  import Text
  import opened Entities

  /** `[Required]` on a string: not null, not empty, not only white space. */
  predicate Required(s: string) {
    !Text.IsBlank(s)
  }

  /** `[StringLength(max)]`: null passes, otherwise at most `max` UTF-16 units. */
  predicate AtMost(s: Option<string>, max: nat) {
    s.None? || Text.Utf16Length(s.value) <= max
  }

  datatype LoginForm = LoginForm(phoneNumber: string, countryCode: string, acceptTerms: bool)

  /** The login form as first shown: empty number, country code "+964". */
  function NewLoginForm(): (f: LoginForm)
    ensures f.countryCode == "+964" && f.phoneNumber == "" && !f.acceptTerms
  {
    LoginForm("", "+964", false)
  }

  /**
   * The phone number is required. The country code is a non-nullable
   * string, so it carries an implicit `[Required]` as well. `[Required]` on
   * the non-nullable bool `AcceptTerms` is always met, so the terms need
   * not be accepted.
   */
  predicate LoginFormValid(f: LoginForm) {
    Required(f.phoneNumber) && Required(f.countryCode)
  }

  /**
   * `[Required]`, `[StringLength(4, MinimumLength = 4)]` and
   * `[RegularExpression(@"^\d{4}$")]`, where the regular expression must
   * match the whole input and `\d` is any Unicode decimal digit.
   */
  predicate FourDigitCode(s: string) {
    && Required(s)
    && Text.Utf16Length(s) == 4
    && |s| == 4 && (forall i :: 0 <= i < 4 ==> Text.IsRegexDigit(s[i]))
  }

  datatype VerifyOtpForm = VerifyOtpForm(otp: string)

  datatype VerifyPhoneForm = VerifyPhoneForm(verificationCode: string)

  predicate VerifyOtpFormValid(f: VerifyOtpForm) {
    FourDigitCode(f.otp)
  }

  predicate VerifyPhoneFormValid(f: VerifyPhoneForm) {
    FourDigitCode(f.verificationCode)
  }

  /** An uploaded file: its client-side name and its size in bytes. */
  datatype Upload = Upload(fileName: string, length: nat)

  datatype CreateAccountForm = CreateAccountForm(
    profile: Profile,
    userType: UserType,
    profileImage: Option<Upload>,
    storeCategories: Option<seq<int>>)

  /**
   * First name, last name, city and district are required and at most 100
   * long; gender is required; location, e-mail and store name are at most
   * 255 long and the store description at most 1000. The date of birth and
   * the account type are value types, so `[Required]` always holds for them.
   */
  predicate CreateAccountFormValid(f: CreateAccountForm) {
    var p := f.profile;
    && Required(p.firstName) && AtMost(Some(p.firstName), 100)
    && Required(p.lastName) && AtMost(Some(p.lastName), 100)
    && Required(p.gender)
    && Required(p.city) && AtMost(Some(p.city), 100)
    && Required(p.district) && AtMost(Some(p.district), 100)
    && AtMost(p.location, 255)
    && AtMost(p.email, 255)
    && AtMost(p.storeName, 255)
    && AtMost(p.storeDescription, 1000)
  }

  /** The four-digit constraint, spelled out: exactly four characters, each a `\d`. */
  lemma FourDigitCodeIsFourDigits(s: string)
    ensures FourDigitCode(s) <==> |s| == 4 && forall i :: 0 <= i < 4 ==> Text.IsRegexDigit(s[i])
  {
    if |s| == 4 && forall i :: 0 <= i < 4 ==> Text.IsRegexDigit(s[i]) {
      assert !Text.IsWhiteSpace(s[0]);
      assert Text.Utf16Length(s) == 4;
    }
  }

  /** A login form passes with the terms box unticked. */
  lemma TermsAreNotEnforced(phone: string, countryCode: string)
    requires Required(phone) && Required(countryCode)
    ensures LoginFormValid(LoginForm(phone, countryCode, false))
  {
  }
}

=== FILE: admin_categories_controller.dfy ===
/**
 * The administrator's taxonomy screens: the category list ordered by name,
 * creation at the three levels and category deletion. The GET forms for a
 * sub-category check that the parent exists; the POST handlers insert any
 * valid record without checking again.
 */
module AdminCategoriesController {
  import opened Wrappers
  import opened Entities
  import opened CategoryModels
  import opened Mvc

  /** Ordinal lexicographic order on names. */
  predicate NameLe(a: string, b: string) {
    |a| == 0 || (|b| > 0 && (a[0] < b[0] || (a[0] == b[0] && NameLe(a[1..], b[1..]))))
  }

  lemma {:induction false} NameLeTotal(a: string, b: string)
    ensures NameLe(a, b) || NameLe(b, a)
  {
    if |a| > 0 && |b| > 0 && a[0] == b[0] {
      NameLeTotal(a[1..], b[1..]);
    }
  }

  lemma {:induction false} NameLeTransitive(a: string, b: string, c: string)
    requires NameLe(a, b) && NameLe(b, c)
    ensures NameLe(a, c)
  {
    if |a| > 0 && |b| > 0 && |c| > 0 && a[0] == b[0] && b[0] == c[0] {
      NameLeTransitive(a[1..], b[1..], c[1..]);
    }
  }

  ghost predicate SortedByName(cs: seq<Category>) {
    forall i, j :: 0 <= i < j < |cs| ==> NameLe(cs[i].name, cs[j].name)
  }

  lemma HeadBoundsInsertion(x: Category, cs: seq<Category>, tail: seq<Category>)
    requires |cs| > 0 && SortedByName(cs)
    requires !NameLe(x.name, cs[0].name)
    requires multiset(tail) == multiset(cs[1..]) + multiset{x}
    ensures forall j :: 0 <= j < |tail| ==> NameLe(cs[0].name, tail[j].name)
  {
    NameLeTotal(x.name, cs[0].name);
    forall j | 0 <= j < |tail|
      ensures NameLe(cs[0].name, tail[j].name)
    {
      assert tail[j] in multiset(tail);
      if tail[j] != x {
        assert tail[j] in multiset(cs[1..]);
        var m :| 0 <= m < |cs[1..]| && cs[1..][m] == tail[j];
        assert cs[m + 1] == tail[j];
      }
    }
  }

  function InsertByName(x: Category, cs: seq<Category>): (r: seq<Category>)
    requires SortedByName(cs)
    ensures SortedByName(r)
    ensures multiset(r) == multiset(cs) + multiset{x}
  {
    if |cs| == 0 then [x]
    else if NameLe(x.name, cs[0].name) then
      assert forall j :: 0 <= j < |cs| ==> NameLe(x.name, cs[j].name) by {
        forall j | 0 <= j < |cs| ensures NameLe(x.name, cs[j].name) {
          if j > 0 { NameLeTransitive(x.name, cs[0].name, cs[j].name); }
        }
      }
      [x] + cs
    else
      var tail := InsertByName(x, cs[1..]);
      HeadBoundsInsertion(x, cs, tail);
      assert cs == [cs[0]] + cs[1..];
      [cs[0]] + tail
  }

  /** Index: every category, active or not, ordered by name. */
  function Index(store: Store): (r: seq<Category>)
    ensures SortedByName(r)
    ensures multiset(r) == multiset(store.categories)
  {
    OrderByName(store.categories)
  }

  function OrderByName(cs: seq<Category>): (r: seq<Category>)
    ensures SortedByName(r)
    ensures multiset(r) == multiset(cs)
  {
    if |cs| == 0 then []
    else
      assert cs == [cs[0]] + cs[1..];
      InsertByName(cs[0], OrderByName(cs[1..]))
  }

  /** POST Create: a valid category is stored under the next id; otherwise nothing changes. */
  function Create(store: Store, posted: Category, attributesOk: bool): (r: StoreStep)
    ensures r.outbox == []
    ensures CategoryValid(posted) && attributesOk ==>
      && r.outcome == RedirectTo(AdminCategoriesIndex)
      && r.store == store.(categories := store.categories + [posted.(id := store.nextCategoryId)],
                           nextCategoryId := store.nextCategoryId + 1)
    ensures !(CategoryValid(posted) && attributesOk) ==> r.store == store && r.outcome == Redisplay(AttributeErrors)
  {
    if CategoryValid(posted) && attributesOk then
      StoreStep(store.(categories := store.categories + [posted.(id := store.nextCategoryId)],
                       nextCategoryId := store.nextCategoryId + 1), [], RedirectTo(AdminCategoriesIndex))
    else StoreStep(store, [], Redisplay(AttributeErrors))
  }

  /** GET CreateSubCategory1: NotFound for an unknown category, else a form pre-filled with its id. */
  function CreateSubCategory1Page(store: Store, categoryId: int, now: int): (r: Option<SubCategory1>)
    ensures r.None? <==> forall c :: c in store.categories ==> c.id != categoryId
    ensures r.Some? ==> r.value.categoryId == categoryId && r.value.isActive
  {
    match FindCategory(store.categories, categoryId)
    case None => None
    case Some(_) => Some(NewSubCategory1(0, "", categoryId, now))
  }

  /** POST CreateSubCategory1: a valid record is stored, whether or not its parent exists. */
  function CreateSubCategory1(store: Store, posted: SubCategory1, attributesOk: bool): (r: StoreStep)
    ensures r.outbox == []
    ensures SubCategory1Valid(posted) && attributesOk ==>
      && r.outcome == RedirectTo(AdminCategoriesIndex)
      && r.store == store.(subCategories1 := store.subCategories1 + [posted.(id := store.nextSubCategory1Id)],
                           nextSubCategory1Id := store.nextSubCategory1Id + 1)
    ensures !(SubCategory1Valid(posted) && attributesOk) ==> r.store == store && r.outcome == Redisplay(AttributeErrors)
  {
    if SubCategory1Valid(posted) && attributesOk then
      StoreStep(store.(subCategories1 := store.subCategories1 + [posted.(id := store.nextSubCategory1Id)],
                       nextSubCategory1Id := store.nextSubCategory1Id + 1), [], RedirectTo(AdminCategoriesIndex))
    else StoreStep(store, [], Redisplay(AttributeErrors))
  }

  /** GET CreateSubCategory2: NotFound for an unknown SubCategory1, else a form pre-filled with its id. */
  function CreateSubCategory2Page(store: Store, subCategory1Id: int, now: int): (r: Option<SubCategory2>)
    ensures r.None? <==> forall s :: s in store.subCategories1 ==> s.id != subCategory1Id
    ensures r.Some? ==> r.value.subCategory1Id == subCategory1Id && r.value.isActive
  {
    match FindSubCategory1(store.subCategories1, subCategory1Id)
    case None => None
    case Some(_) => Some(NewSubCategory2(0, "", subCategory1Id, now))
  }

  /** POST CreateSubCategory2: a valid record is stored, whether or not its parent exists. */
  function CreateSubCategory2(store: Store, posted: SubCategory2, attributesOk: bool): (r: StoreStep)
    ensures r.outbox == []
    ensures SubCategory2Valid(posted) && attributesOk ==>
      && r.outcome == RedirectTo(AdminCategoriesIndex)
      && r.store == store.(subCategories2 := store.subCategories2 + [posted.(id := store.nextSubCategory2Id)],
                           nextSubCategory2Id := store.nextSubCategory2Id + 1)
    ensures !(SubCategory2Valid(posted) && attributesOk) ==> r.store == store && r.outcome == Redisplay(AttributeErrors)
  {
    if SubCategory2Valid(posted) && attributesOk then
      StoreStep(store.(subCategories2 := store.subCategories2 + [posted.(id := store.nextSubCategory2Id)],
                       nextSubCategory2Id := store.nextSubCategory2Id + 1), [], RedirectTo(AdminCategoriesIndex))
    else StoreStep(store, [], Redisplay(AttributeErrors))
  }

  /** The categories without the first one whose id is `id`. */
  function RemoveCategory(cs: seq<Category>, id: int): (r: seq<Category>)
    ensures (forall c :: c in cs ==> c.id != id) ==> r == cs
    ensures (exists c :: c in cs && c.id == id) ==> |r| == |cs| - 1
    ensures forall c :: c in r ==> c in cs
    ensures forall c :: c in cs && c.id != id ==> c in r
  {
    if |cs| == 0 then []
    else if cs[0].id == id then cs[1..]
    else [cs[0]] + RemoveCategory(cs[1..], id)
  }

  /**
   * POST Delete: removes the category with that id if there is one; an
   * unknown id changes nothing. Either way the result is the category list.
   */
  function Delete(store: Store, id: int): (r: StoreStep)
    ensures r.outcome == RedirectTo(AdminCategoriesIndex) && r.outbox == []
    ensures (forall c :: c in store.categories ==> c.id != id) ==> r.store == store
    ensures r.store == store.(categories := r.store.categories)
    ensures forall c :: c in r.store.categories ==> c in store.categories
    ensures forall c :: c in store.categories && c.id != id ==> c in r.store.categories
    ensures (exists c :: c in store.categories && c.id == id) ==> |r.store.categories| == |store.categories| - 1
  {
    match FindCategory(store.categories, id)
    case None => StoreStep(store, [], RedirectTo(AdminCategoriesIndex))
    case Some(_) => StoreStep(store.(categories := RemoveCategory(store.categories, id)), [], RedirectTo(AdminCategoriesIndex))
  }
}

=== FILE: admin_requests_controller.dfy ===
/**
 * The administrator's request screens. `UpdateStatus` assigns whatever
 * status it is given: there is no Pending-only guard, and every approval,
 * including a repeated one, re-stamps the approval time and repeats both
 * notifications.
 */
module AdminRequestsController {
  import opened Wrappers
  import opened Entities
  import opened WhatsApp
  import opened Mvc
  import opened Listing
  import opened Matching
  import Text

  const PageSize: nat := 20

  /** The link text the administrator's store notification carries in place of a URL. */
  const PlaceholderLink: string := "[Request URL]"

  datatype AdminRequestsPage = AdminRequestsPage(
    requests: seq<Request>,
    currentPage: int,
    totalPages: int,
    statusFilter: Option<RequestStatus>)

  /** Every request, or those with the given status, newest first, twenty per page. */
  function Index(store: Store, status: Option<RequestStatus>, page: Int32): (r: Option<AdminRequestsPage>)
    ensures r.None? <==> Wrap32((page - 1) * PageSize) < 0
    ensures r.Some? ==>
      && |r.value.requests| <= PageSize
      && SortedDescending(r.value.requests, ByCreatedAt)
      && (forall x :: x in r.value.requests ==> x in store.requests && (status.None? || x.status == status.value))
      && r.value.totalPages == TotalPages(|Where(store.requests, AdminFilter(status))|, PageSize)
      && r.value.currentPage == page && r.value.statusFilter == status
    ensures r.Some? ==> exists ordered ::
      && multiset(ordered) == multiset(Where(store.requests, AdminFilter(status)))
      && SortedDescending(ordered, ByCreatedAt)
      && PageOf(ordered, page, PageSize) == Some(r.value.requests)
  {
    match ListRequests(store.requests, AdminFilter(status), ByCreatedAt, PageSize, page)
    case None => None
    case Some(p) => Some(AdminRequestsPage(p.items, p.currentPage, p.totalPages, status))
  }

  /** The details page finds a request of any status; an unknown id is NotFound. */
  function Details(store: Store, id: int): (r: Option<Request>)
    ensures r.Some? ==> r.value in store.requests && r.value.id == id
    ensures r.None? <==> forall x :: x in store.requests ==> x.id != id
  {
    match FindRequestIndex(store.requests, id)
    case Some(i) => Some(store.requests[i])
    case None => None
  }

  /** The text logged for the requester of an approved request. */
  function ApprovalMessageText(title: string): (t: string)
    ensures Text.Contains(t, title)
  {
    Text.ContainsMiddle("تم الموافقة على طلبك: ", title, "");
    assert "تم الموافقة على طلبك: " + title + "" == "تم الموافقة على طلبك: " + title;
    "تم الموافقة على طلبك: " + title
  }

  /** `NotifyUserAboutApprovalAsync`: one message to the owner, if the owner exists and has a phone. */
  function NotifyUserAboutApproval(users: seq<User>, r: Request): (msgs: seq<Message>)
    ensures |msgs| <= 1
    ensures |msgs| == 1 <==> FindUser(users, r.userId).Some? && FindUser(users, r.userId).value.phoneNumber != ""
    ensures |msgs| == 1 ==>
      && msgs[0].channel == ConsoleChannel
      && msgs[0].to == FindUser(users, r.userId).value.phoneNumber
      && Text.Contains(msgs[0].text, r.title)
  {
    match FindUser(users, r.userId)
    case Some(u) =>
      if u.phoneNumber != "" then [Message(ConsoleChannel, u.phoneNumber, ApprovalMessageText(r.title))] else []
    case None => []
  }

  /** Both notifications of an approval: the requester's first, then the stores'. */
  function ApprovalNotifications(store: Store, r: Request): seq<Message> {
    NotifyUserAboutApproval(store.users, r) + NotifyStores(store.users, store.storeCategories, r, PlaceholderLink, NullsEqual)
  }

  /** The request after the administrator's assignment. */
  function WithStatus(q: Request, status: RequestStatus, adminNotes: Option<string>, now: int): (u: Request)
    ensures u.status == status && u.adminNotes == adminNotes
    ensures u.approvedAt == if status == Approved then Some(now) else q.approvedAt
    ensures u.(status := q.status, adminNotes := q.adminNotes, approvedAt := q.approvedAt) == q
    ensures u.id == q.id && u.title == q.title && u.userId == q.userId
    ensures u.categoryId == q.categoryId && u.subCategory1Id == q.subCategory1Id && u.subCategory2Id == q.subCategory2Id
  {
    if status == Approved then q.(status := status, adminNotes := adminNotes, approvedAt := Some(now))
    else q.(status := status, adminNotes := adminNotes)
  }

  /**
   * POST UpdateStatus. An unknown id is NotFound and changes nothing.
   * Otherwise the status and notes are set whatever the current status;
   * only an approval stamps `ApprovedAt` and sends the notifications.
   */
  function UpdateStatus(store: Store, id: int, status: RequestStatus, adminNotes: Option<string>, now: int): (r: StoreStep)
    ensures FindRequestIndex(store.requests, id).None? ==>
      r.store == store && r.outbox == [] && r.outcome == NotFound
    ensures FindRequestIndex(store.requests, id).Some? ==>
      var i := FindRequestIndex(store.requests, id).value;
      var q := store.requests[i];
      && r.outcome == RedirectTo(AdminRequestDetails(id))
      && r.store == store.(requests := store.requests[i := WithStatus(q, status, adminNotes, now)])
      && r.store.requests[i].status == status
      && r.store.requests[i].adminNotes == adminNotes
      && r.store.requests[i].approvedAt == (if status == Approved then Some(now) else q.approvedAt)
      && (status != Approved ==> r.outbox == [])
      && (status == Approved ==> r.outbox == ApprovalNotifications(store, q))
  {
    match FindRequestIndex(store.requests, id)
    case None => StoreStep(store, [], NotFound)
    case Some(i) =>
      var q := store.requests[i];
      var updated := WithStatus(q, status, adminNotes, now);
      var outbox := if status == Approved then ApprovalNotifications(store, updated) else [];
      assert status == Approved ==> ApprovalNotifications(store, updated) == ApprovalNotifications(store, q) by {
        assert updated.title == q.title && updated.userId == q.userId;
        assert updated.categoryId == q.categoryId && updated.subCategory1Id == q.subCategory1Id
          && updated.subCategory2Id == q.subCategory2Id;
        NotificationsIgnoreStatus(store, q, updated);
      }
      StoreStep(store.(requests := store.requests[i := updated]), outbox, RedirectTo(AdminRequestDetails(id)))
  }

  /** The notifications depend only on the owner, title and category ids of the request. */
  lemma NotificationsIgnoreStatus(store: Store, a: Request, b: Request)
    requires a.title == b.title && a.userId == b.userId
    requires a.categoryId == b.categoryId && a.subCategory1Id == b.subCategory1Id && a.subCategory2Id == b.subCategory2Id
    ensures ApprovalNotifications(store, a) == ApprovalNotifications(store, b)
  {
    MatchingIgnoresStatus(store.users, store.storeCategories, a, b, NullsEqual);
  }

  lemma {:induction false} MatchingIgnoresStatus(users: seq<User>, edges: seq<StoreCategory>, a: Request, b: Request,
                                                  rule: MatchRule)
    requires a.categoryId == b.categoryId && a.subCategory1Id == b.subCategory1Id && a.subCategory2Id == b.subCategory2Id
    ensures MatchedSellerRows(users, edges, a, rule) == MatchedSellerRows(users, edges, b, rule)
    decreases |edges|
  {
    if |edges| > 0 {
      MatchingIgnoresStatus(users, edges[1..], a, b, rule);
    }
  }
}

=== FILE: category_models.dfy ===
/**
 * The three-level product taxonomy: a `Category`, its `SubCategory1`
 * children and their `SubCategory2` children. A child names its parent by
 * id, one level up; the navigation collections are derived from those ids.
 */
module CategoryModels {
  import opened Wrappers
  import Text

  datatype Category = Category(
    id: int,
    name: string,
    description: Option<string>,
    isActive: bool,
    createdAt: int)

  datatype SubCategory1 = SubCategory1(
    id: int,
    name: string,
    categoryId: int,
    isActive: bool,
    createdAt: int)

  datatype SubCategory2 = SubCategory2(
    id: int,
    name: string,
    subCategory1Id: int,
    isActive: bool,
    createdAt: int)

  /** `[Required]` on `Name`: not null, not empty, not only white space (null is ""). */
  predicate NameValid(name: string) {
    !Text.IsBlank(name)
  }

  predicate CategoryValid(c: Category) { NameValid(c.name) }
  predicate SubCategory1Valid(s: SubCategory1) { NameValid(s.name) }
  predicate SubCategory2Valid(s: SubCategory2) { NameValid(s.name) }

  /** `new Category { Name = name }`: active, no description, stamped with the clock. */
  function NewCategory(id: int, name: string, now: int): (c: Category)
    ensures c.isActive && c.description.None?
    ensures c.id == id && c.name == name && c.createdAt == now
  {
    Category(id, name, None, true, now)
  }

  /** `new SubCategory1 { CategoryId = parent }`: active, its only parent is `parent`. */
  function NewSubCategory1(id: int, name: string, parent: int, now: int): (s: SubCategory1)
    ensures s.isActive && s.categoryId == parent
    ensures s.id == id && s.name == name && s.createdAt == now
  {
    SubCategory1(id, name, parent, true, now)
  }

  /** `new SubCategory2 { SubCategory1Id = parent }`: active, its only parent is `parent`. */
  function NewSubCategory2(id: int, name: string, parent: int, now: int): (s: SubCategory2)
    ensures s.isActive && s.subCategory1Id == parent
    ensures s.id == id && s.name == name && s.createdAt == now
  {
    SubCategory2(id, name, parent, true, now)
  }

  /** `Categories.Where(c => c.IsActive)`: the active categories, in stored order. */
  function ActiveCategories(cats: seq<Category>): (r: seq<Category>)
    ensures forall c :: c in r <==> c in cats && c.isActive
    ensures |r| <= |cats|
  {
    if |cats| == 0 then []
    else (if cats[0].isActive then [cats[0]] else []) + ActiveCategories(cats[1..])
  }

  /** `GetSubCategories1`: id and name of every active SubCategory1 under `categoryId`. */
  function ActiveChildrenOfCategory(subs: seq<SubCategory1>, categoryId: int): (r: seq<(int, string)>)
    ensures forall x :: x in r <==> exists s :: s in subs && s.categoryId == categoryId && s.isActive && x == (s.id, s.name)
  {
    if |subs| == 0 then []
    else
      assert subs == [subs[0]] + subs[1..];
      (if subs[0].categoryId == categoryId && subs[0].isActive then [(subs[0].id, subs[0].name)] else [])
        + ActiveChildrenOfCategory(subs[1..], categoryId)
  }

  /** `GetSubCategories2`: id and name of every active SubCategory2 under `subCategory1Id`. */
  function ActiveChildrenOfSubCategory1(subs: seq<SubCategory2>, subCategory1Id: int): (r: seq<(int, string)>)
    ensures forall x :: x in r <==> exists s :: s in subs && s.subCategory1Id == subCategory1Id && s.isActive && x == (s.id, s.name)
  {
    if |subs| == 0 then []
    else
      assert subs == [subs[0]] + subs[1..];
      (if subs[0].subCategory1Id == subCategory1Id && subs[0].isActive then [(subs[0].id, subs[0].name)] else [])
        + ActiveChildrenOfSubCategory1(subs[1..], subCategory1Id)
  }

  /** A reference to a taxonomy node at one of the three levels. */
  datatype Node = CategoryNode(id: int) | SubCategory1Node(id: int) | SubCategory2Node(id: int)

  function Level(n: Node): (l: nat)
    ensures 1 <= l <= 3
  {
    match n
    case CategoryNode(_) => 1
    case SubCategory1Node(_) => 2
    case SubCategory2Node(_) => 3
  }

  /** The first element of `subs` with id `id` (`FindAsync`). */
  function FindSubCategory1(subs: seq<SubCategory1>, id: int): (r: Option<SubCategory1>)
    ensures r.Some? ==> r.value in subs && r.value.id == id
    ensures r.None? ==> forall s :: s in subs ==> s.id != id
  {
    if |subs| == 0 then None
    else if subs[0].id == id then Some(subs[0])
    else FindSubCategory1(subs[1..], id)
  }

  function FindSubCategory2(subs: seq<SubCategory2>, id: int): (r: Option<SubCategory2>)
    ensures r.Some? ==> r.value in subs && r.value.id == id
    ensures r.None? ==> forall s :: s in subs ==> s.id != id
  {
    if |subs| == 0 then None
    else if subs[0].id == id then Some(subs[0])
    else FindSubCategory2(subs[1..], id)
  }

  function FindCategory(cats: seq<Category>, id: int): (r: Option<Category>)
    ensures r.Some? ==> r.value in cats && r.value.id == id
    ensures r.None? ==> forall c :: c in cats ==> c.id != id
  {
    if |cats| == 0 then None
    else if cats[0].id == id then Some(cats[0])
    else FindCategory(cats[1..], id)
  }

  /**
   * The parent of a stored node: a category has none, a SubCategory1 has
   * its `CategoryId`, a SubCategory2 its `SubCategory1Id`; an unknown id has none.
   */
  function Parent(subs1: seq<SubCategory1>, subs2: seq<SubCategory2>, n: Node): (p: Option<Node>)
    ensures p.Some? ==> Level(p.value) == Level(n) - 1
    ensures n.SubCategory1Node? && p.Some? ==> exists s :: s in subs1 && s.id == n.id && p.value == CategoryNode(s.categoryId)
    ensures n.SubCategory2Node? && p.Some? ==> exists s :: s in subs2 && s.id == n.id && p.value == SubCategory1Node(s.subCategory1Id)
  {
    match n
    case CategoryNode(_) => None
    case SubCategory1Node(id) =>
      (match FindSubCategory1(subs1, id)
       case Some(s) => Some(CategoryNode(s.categoryId))
       case None => None)
    case SubCategory2Node(id) =>
      (match FindSubCategory2(subs2, id)
       case Some(s) => Some(SubCategory1Node(s.subCategory1Id))
       case None => None)
  }

  /** The chain of ancestors of `n`, nearest first. */
  function Ancestors(subs1: seq<SubCategory1>, subs2: seq<SubCategory2>, n: Node): (a: seq<Node>)
    ensures |a| <= Level(n) - 1
    ensures forall i :: 0 <= i < |a| ==> Level(a[i]) == Level(n) - 1 - i
    decreases Level(n)
  {
    match Parent(subs1, subs2, n)
    case None => []
    case Some(p) => [p] + Ancestors(subs1, subs2, p)
  }
}

=== FILE: entities.dfy ===
/**
 * The persisted entities the core reads and writes (users, seller
 * specialty edges, requests, the taxonomy) and the in-memory store that
 * stands in for the database. Ids are assigned from one identity counter per table.
 */
module Entities {
  import opened Wrappers
  import opened CategoryModels

  datatype UserType = Buyer | Seller

  /** `UserType.ToString()`. */
  function UserTypeName(t: UserType): string {
    match t
    case Buyer => "Buyer"
    case Seller => "Seller"
  }

  /** The registration form's profile fields, copied verbatim onto the user. */
  datatype Profile = Profile(
    firstName: string,
    lastName: string,
    dateOfBirth: int,
    gender: string,
    city: string,
    district: string,
    location: Option<string>,
    email: Option<string>,
    storeName: Option<string>,
    storeDescription: Option<string>,
    websiteUrl1: Option<string>,
    websiteUrl2: Option<string>,
    websiteUrl3: Option<string>)

  datatype User = User(
    id: int,
    phoneNumber: string,
    profile: Profile,
    userType: UserType,
    isPhoneVerified: bool,
    profileImage: Option<string>,
    createdAt: int)

  /** A seller-specialty edge: the user serves the node(s) whose ids are set. */
  datatype StoreCategory = StoreCategory(
    id: int,
    userId: int,
    categoryId: Option<int>,
    subCategory1Id: Option<int>,
    subCategory2Id: Option<int>,
    createdAt: int)

  datatype RequestStatus = Pending | Approved | Rejected

  datatype Request = Request(
    id: int,
    title: string,
    description: string,
    categoryId: int,
    subCategory1Id: Option<int>,
    subCategory2Id: Option<int>,
    city: string,
    district: string,
    location: Option<string>,
    userId: int,
    status: RequestStatus,
    createdAt: int,
    approvedAt: Option<int>,
    adminNotes: Option<string>)

  /** The database: one sequence per table and the next identity value of each. */
  datatype Store = Store(
    users: seq<User>,
    storeCategories: seq<StoreCategory>,
    requests: seq<Request>,
    categories: seq<Category>,
    subCategories1: seq<SubCategory1>,
    subCategories2: seq<SubCategory2>,
    nextUserId: int,
    nextStoreCategoryId: int,
    nextRequestId: int,
    nextCategoryId: int,
    nextSubCategory1Id: int,
    nextSubCategory2Id: int)

  /** `Users.FindAsync(id)`: the user with that key, if any. */
  function FindUser(users: seq<User>, id: int): (r: Option<User>)
    ensures r.Some? ==> r.value in users && r.value.id == id
    ensures r.None? <==> forall u :: u in users ==> u.id != id
  {
    if |users| == 0 then None
    else if users[0].id == id then Some(users[0])
    else FindUser(users[1..], id)
  }

  /** `Users.FirstOrDefaultAsync(u => u.PhoneNumber == phone)`. */
  function FindUserByPhone(users: seq<User>, phone: string): (r: Option<User>)
    ensures r.Some? ==> r.value in users && r.value.phoneNumber == phone
    ensures r.None? <==> forall u :: u in users ==> u.phoneNumber != phone
  {
    if |users| == 0 then None
    else if users[0].phoneNumber == phone then Some(users[0])
    else FindUserByPhone(users[1..], phone)
  }

  /** `Users.AnyAsync(u => u.Email == email)`; a user without an email never matches. */
  predicate EmailInUse(users: seq<User>, email: string) {
    exists i :: 0 <= i < |users| && users[i].profile.email == Some(email)
  }

  /** The position of the request with key `id`, if any. */
  function FindRequestIndex(requests: seq<Request>, id: int): (r: Option<nat>)
    ensures r.Some? ==> r.value < |requests| && requests[r.value].id == id
    ensures r.Some? ==> forall j :: 0 <= j < r.value ==> requests[j].id != id
    ensures r.None? <==> forall i :: 0 <= i < |requests| ==> requests[i].id != id
  {
    if |requests| == 0 then None
    else if requests[0].id == id then Some(0)
    else match FindRequestIndex(requests[1..], id)
      case Some(i) => Some(i + 1)
      case None => None
  }

  /** The users' keys are unique and below the table's identity counter. */
  ghost predicate UserKeys(us: seq<User>, next: int) {
    && (forall i, j :: 0 <= i < j < |us| ==> us[i].id != us[j].id)
    && (forall i :: 0 <= i < |us| ==> us[i].id < next)
  }

  ghost predicate EdgeKeys(es: seq<StoreCategory>, next: int) {
    && (forall i, j :: 0 <= i < j < |es| ==> es[i].id != es[j].id)
    && (forall i :: 0 <= i < |es| ==> es[i].id < next)
  }

  ghost predicate RequestKeys(rs: seq<Request>, next: int) {
    && (forall i, j :: 0 <= i < j < |rs| ==> rs[i].id != rs[j].id)
    && (forall i :: 0 <= i < |rs| ==> rs[i].id < next)
  }

  ghost predicate CategoryKeys(cs: seq<Category>, next: int) {
    && (forall i, j :: 0 <= i < j < |cs| ==> cs[i].id != cs[j].id)
    && (forall i :: 0 <= i < |cs| ==> cs[i].id < next)
  }

  ghost predicate SubCategory1Keys(ss: seq<SubCategory1>, next: int) {
    && (forall i, j :: 0 <= i < j < |ss| ==> ss[i].id != ss[j].id)
    && (forall i :: 0 <= i < |ss| ==> ss[i].id < next)
  }

  ghost predicate SubCategory2Keys(ss: seq<SubCategory2>, next: int) {
    && (forall i, j :: 0 <= i < j < |ss| ==> ss[i].id != ss[j].id)
    && (forall i :: 0 <= i < |ss| ==> ss[i].id < next)
  }

  /** Keys are unique in every table and below the table's identity counter. */
  ghost predicate Valid(st: Store) {
    && UserKeys(st.users, st.nextUserId)
    && EdgeKeys(st.storeCategories, st.nextStoreCategoryId)
    && RequestKeys(st.requests, st.nextRequestId)
    && CategoryKeys(st.categories, st.nextCategoryId)
    && SubCategory1Keys(st.subCategories1, st.nextSubCategory1Id)
    && SubCategory2Keys(st.subCategories2, st.nextSubCategory2Id)
  }

  /** Every sub-category's parent is stored: the taxonomy has no dangling links. */
  ghost predicate Linked(st: Store) {
    && (forall s :: s in st.subCategories1 ==> exists c :: c in st.categories && c.id == s.categoryId)
    && (forall s :: s in st.subCategories2 ==> exists p :: p in st.subCategories1 && p.id == s.subCategory1Id)
  }
}

=== FILE: listing.dfy ===
/**
 * The list screens' query arithmetic: filtering, `OrderByDescending` on a
 * nullable timestamp (SQL Server puts nulls last), `Skip`/`Take` with the
 * 32-bit offset C# computes, and the page count `ceil(total / size)`.
 */
module Listing {
  import opened Wrappers
  import opened Entities
  import Text

  type Int32 = x: int | -0x8000_0000 <= x < 0x8000_0000

  /** C#'s unchecked 32-bit arithmetic: the value modulo 2^32, as a signed int. */
  function Wrap32(x: int): (r: Int32)
    ensures (r - x) % 0x1_0000_0000 == 0
    ensures -0x8000_0000 <= x < 0x8000_0000 ==> r == x
  {
    (x + 0x8000_0000) % 0x1_0000_0000 - 0x8000_0000
  }

  /** `a` comes no later than `b` in a descending order where null is lowest. */
  predicate AtLeast(a: Option<int>, b: Option<int>) {
    b.None? || (a.Some? && a.value >= b.value)
  }

  datatype SortKey = ByApprovedAt | ByCreatedAt

  function Key(r: Request, k: SortKey): Option<int> {
    match k
    case ByApprovedAt => r.approvedAt
    case ByCreatedAt => Some(r.createdAt)
  }

  ghost predicate SortedDescending(rs: seq<Request>, k: SortKey) {
    forall i, j :: 0 <= i < j < |rs| ==> AtLeast(Key(rs[i], k), Key(rs[j], k))
  }

  lemma AtLeastTotal(a: Option<int>, b: Option<int>)
    ensures AtLeast(a, b) || AtLeast(b, a)
  {
  }

  /** The head of a sorted list bounds everything the insertion into its tail yields. */
  lemma HeadBoundsInsertion(x: Request, rs: seq<Request>, k: SortKey, tail: seq<Request>)
    requires |rs| > 0 && SortedDescending(rs, k)
    requires !AtLeast(Key(x, k), Key(rs[0], k))
    requires multiset(tail) == multiset(rs[1..]) + multiset{x}
    ensures forall j :: 0 <= j < |tail| ==> AtLeast(Key(rs[0], k), Key(tail[j], k))
  {
    AtLeastTotal(Key(x, k), Key(rs[0], k));
    forall j | 0 <= j < |tail|
      ensures AtLeast(Key(rs[0], k), Key(tail[j], k))
    {
      assert tail[j] in multiset(tail);
      if tail[j] != x {
        assert tail[j] in multiset(rs[1..]);
        var m :| 0 <= m < |rs[1..]| && rs[1..][m] == tail[j];
        assert rs[m + 1] == tail[j];
      }
    }
  }

  function InsertDescending(x: Request, rs: seq<Request>, k: SortKey): (r: seq<Request>)
    requires SortedDescending(rs, k)
    ensures SortedDescending(r, k)
    ensures multiset(r) == multiset(rs) + multiset{x}
  {
    if |rs| == 0 then [x]
    else if AtLeast(Key(x, k), Key(rs[0], k)) then [x] + rs
    else
      var tail := InsertDescending(x, rs[1..], k);
      HeadBoundsInsertion(x, rs, k, tail);
      assert rs == [rs[0]] + rs[1..];
      [rs[0]] + tail
  }

  /** `OrderByDescending`: a permutation of the input, sorted by the key. */
  function OrderByDescending(rs: seq<Request>, k: SortKey): (r: seq<Request>)
    ensures SortedDescending(r, k)
    ensures multiset(r) == multiset(rs)
  {
    if |rs| == 0 then []
    else
      assert rs == [rs[0]] + rs[1..];
      InsertDescending(rs[0], OrderByDescending(rs[1..], k), k)
  }

  /** `(int)Math.Ceiling((double)total / size)`: the fewest pages holding `total` items. */
  function TotalPages(total: nat, size: nat): (n: nat)
    requires size > 0
    ensures n * size >= total
    ensures n == 0 || (n - 1) * size < total
  {
    (total + size - 1) / size
  }

  /**
   * `Skip(offset).Take(size)`, where `offset` is the C#-wrapped
   * `(page - 1) * size`; a negative offset is rejected by the database.
   */
  function PageOf(items: seq<Request>, page: Int32, size: nat): (r: Option<seq<Request>>)
    requires size > 0
    ensures r.None? <==> Wrap32((page - 1) * size) < 0
    ensures r.Some? ==> |r.value| <= size
    ensures r.Some? ==> var offset := Wrap32((page - 1) * size);
      forall i :: 0 <= i < |r.value| ==> offset + i < |items| && r.value[i] == items[offset + i]
    ensures r.Some? ==> var offset := Wrap32((page - 1) * size);
      |r.value| == if offset >= |items| then 0 else if offset + size <= |items| then size else |items| - offset
  {
    var offset := Wrap32((page - 1) * size);
    if offset < 0 then None
    else if offset >= |items| then Some([])
    else if offset + size <= |items| then Some(items[offset..offset + size])
    else Some(items[offset..])
  }

  lemma MulMonotone(a: int, b: int, size: nat)
    requires a <= b
    ensures a * size <= b * size
  {
  }

  /** Every item lands on exactly the page its position says, within the page count. */
  lemma EveryItemOnItsPage(items: seq<Request>, size: nat, i: nat)
    requires size > 0 && i < |items| < 0x8000_0000
    ensures 1 <= i / size + 1 <= TotalPages(|items|, size)
    ensures PageOf(items, i / size + 1, size).Some?
    ensures var p := PageOf(items, i / size + 1, size).value;
      i % size < |p| && p[i % size] == items[i]
  {
    var q := i / size;
    var m := i % size;
    assert i == q * size + m;
    MulMonotone(0, q, size);
    var n := TotalPages(|items|, size);
    if n <= q {
      MulMonotone(n, q, size);
    }
    var page := q + 1;
    assert (page - 1) * size == q * size;
    assert Wrap32((page - 1) * size) == q * size;
  }

  /** The search box: empty means no filter, otherwise title or description contain it. */
  predicate MatchesSearch(r: Request, search: Option<string>) {
    search.None? || search.value == "" || Text.Contains(r.title, search.value) || Text.Contains(r.description, search.value)
  }

  /** The `Where` clauses of the two list screens. */
  datatype RequestFilter =
    | PublicFilter(search: Option<string>, categoryId: Option<int>)
    | AdminFilter(status: Option<RequestStatus>)

  predicate Keeps(f: RequestFilter, r: Request) {
    match f
    case PublicFilter(search, categoryId) =>
      r.status == Approved && MatchesSearch(r, search) && (categoryId.None? || r.categoryId == categoryId.value)
    case AdminFilter(status) =>
      status.None? || r.status == status.value
  }

  /** The requests the filter keeps, in stored order, each as often as stored. */
  function Where(rs: seq<Request>, f: RequestFilter): (r: seq<Request>)
    ensures forall x :: x in r <==> x in rs && Keeps(f, x)
    ensures forall x :: multiset(r)[x] == if Keeps(f, x) then multiset(rs)[x] else 0
  {
    if |rs| == 0 then []
    else
      assert rs == [rs[0]] + rs[1..];
      (if Keeps(f, rs[0]) then [rs[0]] else []) + Where(rs[1..], f)
  }

  /** A page of a sorted list is sorted and holds only elements of the list. */
  lemma PageOfSortedIsSorted(ordered: seq<Request>, k: SortKey, page: Int32, size: nat)
    requires size > 0 && SortedDescending(ordered, k) && PageOf(ordered, page, size).Some?
    ensures SortedDescending(PageOf(ordered, page, size).value, k)
    ensures forall x :: x in PageOf(ordered, page, size).value ==> x in multiset(ordered)
  {
    var items := PageOf(ordered, page, size).value;
    var offset := Wrap32((page - 1) * size);
    forall i, j | 0 <= i < j < |items| ensures AtLeast(Key(items[i], k), Key(items[j], k)) {
      assert items[i] == ordered[offset + i] && items[j] == ordered[offset + j];
    }
    forall x | x in items ensures x in multiset(ordered) {
      var i :| 0 <= i < |items| && items[i] == x;
      assert ordered[offset + i] in ordered;
    }
  }

  datatype ListPage = ListPage(items: seq<Request>, currentPage: int, totalPages: int)

  /**
   * A list screen's query: filter, count, order descending by `k`, skip
   * `(page - 1) * size` and take `size`. The page holds only requests the
   * filter keeps, in key order, and the page count covers every match.
   */
  function ListRequests(rs: seq<Request>, f: RequestFilter, k: SortKey, size: nat, page: Int32): (r: Option<ListPage>)
    requires size > 0
    ensures r.None? <==> Wrap32((page - 1) * size) < 0
    ensures r.Some? ==>
      && r.value.currentPage == page
      && r.value.totalPages == TotalPages(|Where(rs, f)|, size)
      && |r.value.items| <= size
      && SortedDescending(r.value.items, k)
      && (forall x :: x in r.value.items ==> x in rs && Keeps(f, x))
    ensures r.Some? ==> exists ordered ::
      && multiset(ordered) == multiset(Where(rs, f)) && SortedDescending(ordered, k)
      && PageOf(ordered, page, size) == Some(r.value.items)
  {
    var matching := Where(rs, f);
    var ordered := OrderByDescending(matching, k);
    match PageOf(ordered, page, size)
    case None => None
    case Some(items) =>
      PageOfSortedIsSorted(ordered, k, page, size);
      assert forall x :: x in items ==> x in multiset(matching);
      Some(ListPage(items, page, TotalPages(|matching|, size)))
  }
}

=== FILE: matching.dfy ===
/**
 * Which sellers hear about a request. Both controllers run the same query:
 * keep the specialty edges that match the request on any of the three ids,
 * project each to its user, keep sellers, drop duplicate rows; then one
 * console message per seller who has a phone number.
 *
 * The optional ids compare with C#'s lifted `int?` equality, which the
 * database query preserves: absent equals absent. A request without
 * sub-categories therefore matches every edge whose sub-category id is
 * absent, in whatever category. `MatchRule` selects that clause
 * (`NullsEqual`, what both controllers run) or the one that compares a
 * sub-category only when the request names it (`NullsIgnored`).
 */
module Matching {
  import opened Wrappers
  import opened Entities
  import opened WhatsApp
  import Text

  /** The `Where` clause of `NotifyStoresAsync`, exactly as written. */
  predicate EdgeMatches(e: StoreCategory, r: Request) {
    || e.categoryId == Some(r.categoryId)
    || e.subCategory1Id == r.subCategory1Id
    || e.subCategory2Id == r.subCategory2Id
  }

  /** The clause as evidently meant: a sub-category is compared only when the request names one. */
  predicate EdgeMatchesIntended(e: StoreCategory, r: Request) {
    || e.categoryId == Some(r.categoryId)
    || (r.subCategory1Id.Some? && e.subCategory1Id == r.subCategory1Id)
    || (r.subCategory2Id.Some? && e.subCategory2Id == r.subCategory2Id)
  }

  /** Which of the two clauses a fan-out applies. */
  datatype MatchRule = NullsEqual | NullsIgnored

  predicate Matches(rule: MatchRule, e: StoreCategory, r: Request) {
    match rule
    case NullsEqual => EdgeMatches(e, r)
    case NullsIgnored => EdgeMatchesIntended(e, r)
  }

  /** `.Select(sc => sc.User).Where(u => u.UserType == Seller)` over the matching edges, in edge order. */
  function MatchedSellerRows(users: seq<User>, edges: seq<StoreCategory>, r: Request, rule: MatchRule): (rows: seq<User>)
    ensures forall u :: u in rows <==>
      u.userType == Seller && exists e :: e in edges && Matches(rule, e, r) && FindUser(users, e.userId) == Some(u)
  {
    if |edges| == 0 then []
    else
      var e := edges[0];
      var here := match FindUser(users, e.userId)
        case Some(u) => if Matches(rule, e, r) && u.userType == Seller then [u] else []
        case None => [];
      assert edges == [e] + edges[1..];
      here + MatchedSellerRows(users, edges[1..], r, rule)
  }

  /** `.Distinct()`: each row once, first occurrence kept. */
  function Distinct(us: seq<User>): (d: seq<User>)
    ensures forall u :: u in d <==> u in us
    ensures forall i, j :: 0 <= i < j < |d| ==> d[i] != d[j]
  {
    if |us| == 0 then []
    else
      var last := us[|us| - 1];
      var front := Distinct(us[..|us| - 1]);
      assert us == us[..|us| - 1] + [last];
      if last in front then front else front + [last]
  }

  /** The users `NotifyStoresAsync` and `NotifyStoresAboutNewRequestAsync` iterate over. */
  function RelevantSellers(users: seq<User>, edges: seq<StoreCategory>, r: Request, rule: MatchRule): (sellers: seq<User>)
    ensures forall u :: u in sellers <==>
      && u in users && u.userType == Seller
      && exists e :: e in edges && Matches(rule, e, r) && FindUser(users, e.userId) == Some(u)
    ensures forall i, j :: 0 <= i < j < |sellers| ==> sellers[i] != sellers[j]
  {
    Distinct(MatchedSellerRows(users, edges, r, rule))
  }

  /** The sellers who have a phone number, in order. */
  function WithPhone(sellers: seq<User>): (r: seq<User>)
    ensures forall u :: u in r <==> u in sellers && u.phoneNumber != ""
    ensures forall u :: multiset(r)[u] == if u.phoneNumber != "" then multiset(sellers)[u] else 0
  {
    if |sellers| == 0 then []
    else
      assert sellers == [sellers[0]] + sellers[1..];
      (if sellers[0].phoneNumber != "" then [sellers[0]] else []) + WithPhone(sellers[1..])
  }

  /** One console message per seller with a phone number, to that number. */
  function FanOut(sellers: seq<User>, text: string): (msgs: seq<Message>)
    ensures |msgs| == |WithPhone(sellers)|
    ensures forall i :: 0 <= i < |msgs| ==>
      msgs[i].channel == ConsoleChannel && msgs[i].to == WithPhone(sellers)[i].phoneNumber && msgs[i].text == text
  {
    var targets := WithPhone(sellers);
    seq(|targets|, i requires 0 <= i < |targets| => Message(ConsoleChannel, targets[i].phoneNumber, text))
  }

  /** A seller list without repeats yields exactly one message per seller with a phone and none for the others. */
  lemma OneMessagePerSeller(sellers: seq<User>, text: string, u: User)
    requires forall i, j :: 0 <= i < j < |sellers| ==> sellers[i] != sellers[j]
    requires u in sellers
    ensures u.phoneNumber != "" ==> multiset(WithPhone(sellers))[u] == 1
    ensures u.phoneNumber == "" ==> u !in WithPhone(sellers)
  {
    var i :| 0 <= i < |sellers| && sellers[i] == u;
    DistinctCountsOnce(sellers, i);
  }

  lemma {:induction false} DistinctCountsOnce(s: seq<User>, i: nat)
    requires i < |s|
    requires forall a, b :: 0 <= a < b < |s| ==> s[a] != s[b]
    ensures multiset(s)[s[i]] == 1
  {
    if i == 0 {
      assert s == [s[0]] + s[1..];
      assert s[0] !in s[1..];
    } else {
      assert s == [s[0]] + s[1..];
      assert s[1..][i - 1] == s[i];
      DistinctCountsOnce(s[1..], i - 1);
    }
  }

  const StoreMessageOpening: string := "طلب جديد في متجركم: "

  /** The console line for a store: the opening, then the title, a line break and the link, which ends it. */
  function StoreMessageText(title: string, link: string): (t: string)
    ensures Text.Contains(t, title) && Text.Contains(t, link)
    ensures |t| >= |StoreMessageOpening| + |title| + |link|
    ensures t[..|StoreMessageOpening|] == StoreMessageOpening
    ensures t[|StoreMessageOpening|..|StoreMessageOpening| + |title|] == title
    ensures t[|t| - |link|..] == link
  {
    var mid := "\n" + "الرابط: ";
    var t := StoreMessageOpening + title + mid + link;
    Text.ContainsMiddle(StoreMessageOpening, title, mid + link);
    assert t == StoreMessageOpening + title + (mid + link);
    Text.ContainsMiddle(StoreMessageOpening + title + mid, link, "");
    assert t == (StoreMessageOpening + title + mid) + link + "";
    t
  }

  /** The messages a request's fan-out writes, given the link shown in them. */
  function NotifyStores(users: seq<User>, edges: seq<StoreCategory>, r: Request, link: string, rule: MatchRule): (msgs: seq<Message>)
    ensures forall m :: m in msgs ==> m.channel == ConsoleChannel && Text.Contains(m.text, r.title)
    ensures forall m :: m in msgs ==> exists u :: u in RelevantSellers(users, edges, r, rule) && u.phoneNumber == m.to && u.phoneNumber != ""
    ensures |msgs| == |WithPhone(RelevantSellers(users, edges, r, rule))|
  {
    var sellers := RelevantSellers(users, edges, r, rule);
    var msgs := FanOut(sellers, StoreMessageText(r.title, link));
    assert forall m :: m in msgs ==> exists u :: u in sellers && u.phoneNumber == m.to && u.phoneNumber != "" by {
      forall m | m in msgs ensures exists u :: u in sellers && u.phoneNumber == m.to && u.phoneNumber != "" {
        var i :| 0 <= i < |msgs| && msgs[i] == m;
        assert WithPhone(sellers)[i] in WithPhone(sellers);
      }
    }
    msgs
  }

  /**
   * With no sub-categories on the request, an edge matches when it names
   * the request's category or leaves either sub-category id empty.
   */
  lemma CategoryOnlyRequestMatches(e: StoreCategory, r: Request)
    requires r.subCategory1Id.None? && r.subCategory2Id.None?
    ensures EdgeMatches(e, r) <==>
      e.categoryId == Some(r.categoryId) || e.subCategory1Id.None? || e.subCategory2Id.None?
  {
  }

  /** With all three ids on the request, an edge matches when it shares any one of them. */
  lemma FullySpecifiedRequestMatches(e: StoreCategory, r: Request)
    requires r.subCategory1Id.Some? && r.subCategory2Id.Some?
    ensures EdgeMatches(e, r) <==>
      || e.categoryId == Some(r.categoryId)
      || (e.subCategory1Id.Some? && e.subCategory1Id.value == r.subCategory1Id.value)
      || (e.subCategory2Id.Some? && e.subCategory2Id.value == r.subCategory2Id.value)
  {
  }

  /**
   * An edge recorded at registration (only `CategoryId` set) matches every
   * request without a SubCategory1, whatever its category.
   */
  lemma RegistrationEdgeMatchesEveryCoarseRequest(e: StoreCategory, r: Request)
    requires e.subCategory1Id.None? && e.subCategory2Id.None?
    requires r.subCategory1Id.None?
    ensures EdgeMatches(e, r)
  {
  }
}

=== FILE: matching_properties.dfy ===
/**
 * The store fan-out under the two matching clauses. As written, an absent
 * sub-category on the request equals an absent sub-category on the edge, so
 * a request naming only a category reaches sellers of every category; the
 * intended clause compares only the ids the request names.
 */
module MatchingProperties {
  import opened Wrappers
  import opened Entities
  import opened Matching

  /** Under the intended clause a category-only request matches exactly the edges of its category. */
  lemma IntendedCategoryOnly(e: StoreCategory, r: Request)
    requires r.subCategory1Id.None? && r.subCategory2Id.None?
    ensures EdgeMatchesIntended(e, r) <==> e.categoryId == Some(r.categoryId)
  {
  }

  /** When the request names both sub-categories, the two clauses agree. */
  lemma ClausesAgreeWhenSubCategoriesNamed(e: StoreCategory, r: Request)
    requires r.subCategory1Id.Some? && r.subCategory2Id.Some?
    ensures EdgeMatchesIntended(e, r) <==> EdgeMatches(e, r)
  {
  }

  /** The intended clause only ever removes matches. */
  lemma IntendedNeverWider(e: StoreCategory, r: Request)
    ensures EdgeMatchesIntended(e, r) ==> EdgeMatches(e, r)
  {
  }

  /** Every seller the intended fan-out reaches, the fan-out as written reaches too. */
  lemma IntendedSellersAmongAsWritten(users: seq<User>, edges: seq<StoreCategory>, r: Request)
    ensures forall u :: u in RelevantSellers(users, edges, r, NullsIgnored) ==> u in RelevantSellers(users, edges, r, NullsEqual)
  {
  }

  /**
   * Under the intended clause, the sellers a category-only request reaches
   * are exactly those with a specialty edge in that category.
   */
  lemma IntendedCategoryOnlySellers(users: seq<User>, edges: seq<StoreCategory>, r: Request)
    requires r.subCategory1Id.None? && r.subCategory2Id.None?
    ensures forall u :: u in RelevantSellers(users, edges, r, NullsIgnored) <==>
      && u in users && u.userType == Seller
      && exists e :: e in edges && e.categoryId == Some(r.categoryId) && FindUser(users, e.userId) == Some(u)
  {
    forall u | u in users && u.userType == Seller
      && exists e :: e in edges && e.categoryId == Some(r.categoryId) && FindUser(users, e.userId) == Some(u)
      ensures u in RelevantSellers(users, edges, r, NullsIgnored)
    {
      var e :| e in edges && e.categoryId == Some(r.categoryId) && FindUser(users, e.userId) == Some(u);
      assert Matches(NullsIgnored, e, r);
    }
  }

  /**
   * The discrepancy on one input: a seller whose only specialty is a whole
   * category (the edge registration records) hears about a category-only
   * request in any other category as written, and not under the intended clause.
   */
  lemma AsWrittenReachesOtherCategories(u: User, r: Request, other: int)
    requires u.userType == Seller && other != r.categoryId
    requires r.subCategory1Id.None? && r.subCategory2Id.None?
    ensures var e := StoreCategory(1, u.id, Some(other), None, None, 0);
      && u in RelevantSellers([u], [e], r, NullsEqual)
      && u !in RelevantSellers([u], [e], r, NullsIgnored)
  {
    var e := StoreCategory(1, u.id, Some(other), None, None, 0);
    assert FindUser([u], u.id) == Some(u);
    assert Matches(NullsEqual, e, r);
    assert !Matches(NullsIgnored, e, r);
  }
}

=== FILE: mvc.dfy ===
/**
 * What an MVC action hands back to the framework, and the step result
 * every modelled action returns: the new session, the new store, the
 * messages written while the action ran (in order) and the action result.
 */
module Mvc {
  import Sessions
  import Entities
  import WhatsApp

  /** The redirect targets the core uses (`RedirectToAction`). */
  datatype Target =
    | AccountLogin
    | AccountVerifyOtp
    | AccountVerifyPhone
    | AccountCreate
    | HomeIndex
    | RequestsIndex
    | AdminRequestDetails(id: int)
    | AdminCategoriesIndex

  /** Why a form is shown again. */
  datatype FormError =
    | AttributeErrors   // the validation attributes rejected the posted form
    | CodeMismatch      // "the code is wrong"
    | EmailTaken        // "this e-mail is already used"

  datatype Outcome =
    | RedirectTo(target: Target)
    | Redisplay(error: FormError)
    | ShowView
    | NotFound

  /** The result of an action that reads the session but does not change it. */
  datatype StoreStep = StoreStep(
    store: Entities.Store,
    outbox: seq<WhatsApp.Message>,
    outcome: Outcome)

  datatype Step = Step(
    session: Sessions.Session,
    store: Entities.Store,
    outbox: seq<WhatsApp.Message>,
    outcome: Outcome)
}

=== FILE: request_lifecycle.dfy ===
/**
 * A request across the two controllers: created pending by a signed-in
 * user, shown publicly only once approved, and moved between statuses by
 * an administrator with no transition rule. The stores are alerted when
 * the request is created and again on every approval.
 */
module RequestLifecycle {
  import opened Wrappers
  import opened Sessions
  import opened Entities
  import opened WhatsApp
  import opened Mvc
  import opened Matching
  import RequestsController
  import AdminRequestsController

  /** Overwriting a request with one of the same id does not move where an id is found. */
  lemma {:induction false} FindAfterUpdate(rs: seq<Request>, i: nat, x: Request, id: int)
    requires i < |rs| && x.id == rs[i].id
    ensures FindRequestIndex(rs[i := x], id) == FindRequestIndex(rs, id)
    decreases |rs|
  {
    if |rs| > 0 && i > 0 && rs[0].id != id {
      assert rs[i := x][1..] == rs[1..][i - 1 := x];
      FindAfterUpdate(rs[1..], i - 1, x, id);
    }
  }

  /** What a successful update changes: the one request, found where it was. */
  lemma UpdatedRequest(store: Store, id: int, status: RequestStatus, notes: Option<string>, now: int)
    requires FindRequestIndex(store.requests, id).Some?
    ensures var i := FindRequestIndex(store.requests, id).value;
      var q := store.requests[i];
      var r := AdminRequestsController.UpdateStatus(store, id, status, notes, now);
      && FindRequestIndex(r.store.requests, id) == Some(i)
      && |r.store.requests| == |store.requests|
      && r.store.requests[i] == AdminRequestsController.WithStatus(q, status, notes, now)
      && r.store.users == store.users && r.store.storeCategories == store.storeCategories
      && r.outbox == (if status == Approved then AdminRequestsController.ApprovalNotifications(store, q) else [])
      && r.outcome == RedirectTo(AdminRequestDetails(id))
  {
    var i := FindRequestIndex(store.requests, id).value;
    var q := store.requests[i];
    FindAfterUpdate(store.requests, i, AdminRequestsController.WithStatus(q, status, notes, now), id);
  }

  /**
   * Approving an approved request again is accepted: the approval time is
   * re-stamped, and the requester and the stores are notified a second time
   * with the same messages.
   */
  lemma ReapprovalRestamps(store: Store, id: int, notes1: Option<string>, t1: int, notes2: Option<string>, t2: int)
    requires FindRequestIndex(store.requests, id).Some?
    ensures var i := FindRequestIndex(store.requests, id).value;
      var first := AdminRequestsController.UpdateStatus(store, id, Approved, notes1, t1);
      var second := AdminRequestsController.UpdateStatus(first.store, id, Approved, notes2, t2);
      && second.outcome == first.outcome
      && second.store.requests[i].approvedAt == Some(t2)
      && second.store.requests[i].status == Approved
  {
    UpdatedRequest(store, id, Approved, notes1, t1);
    UpdatedRequest(AdminRequestsController.UpdateStatus(store, id, Approved, notes1, t1).store, id, Approved, notes2, t2);
  }

  lemma ReapprovalRepeatsNotifications(store: Store, id: int, notes1: Option<string>, t1: int,
                                       notes2: Option<string>, t2: int)
    requires FindRequestIndex(store.requests, id).Some?
    ensures var first := AdminRequestsController.UpdateStatus(store, id, Approved, notes1, t1);
      AdminRequestsController.UpdateStatus(first.store, id, Approved, notes2, t2).outbox == first.outbox
  {
    var i := FindRequestIndex(store.requests, id).value;
    var q := store.requests[i];
    UpdatedRequest(store, id, Approved, notes1, t1);
    var first := AdminRequestsController.UpdateStatus(store, id, Approved, notes1, t1);
    var q1 := first.store.requests[i];
    UpdatedRequest(first.store, id, Approved, notes2, t2);
    var second := AdminRequestsController.UpdateStatus(first.store, id, Approved, notes2, t2);
    calc {
      second.outbox;
      AdminRequestsController.ApprovalNotifications(first.store, q1);
      { NotificationsReadOnlyUsersAndEdges(first.store, store, q1); }
      AdminRequestsController.ApprovalNotifications(store, q1);
      { AdminRequestsController.NotificationsIgnoreStatus(store, q, q1); }
      AdminRequestsController.ApprovalNotifications(store, q);
    }
  }

  lemma NotificationsReadOnlyUsersAndEdges(a: Store, b: Store, q: Request)
    requires a.users == b.users && a.storeCategories == b.storeCategories
    ensures AdminRequestsController.ApprovalNotifications(a, q) == AdminRequestsController.ApprovalNotifications(b, q)
  {
  }

  /**
   * Any status can follow any other. Moving an approved request back to
   * Pending or to Rejected keeps its approval time, so a request that is
   * not approved can still carry one.
   */
  lemma WithdrawnApprovalKeepsApprovedAt(store: Store, id: int, back: RequestStatus, notes1: Option<string>, t1: int,
                                         notes2: Option<string>, t2: int)
    requires FindRequestIndex(store.requests, id).Some? && back != Approved
    ensures var i := FindRequestIndex(store.requests, id).value;
      var first := AdminRequestsController.UpdateStatus(store, id, Approved, notes1, t1);
      var second := AdminRequestsController.UpdateStatus(first.store, id, back, notes2, t2);
      && second.store.requests[i].status == back
      && second.store.requests[i].approvedAt == Some(t1)
      && second.outbox == []
  {
    UpdatedRequest(store, id, Approved, notes1, t1);
  }

  /** Repeating an update leaves the store as the first one did; only the messages repeat. */
  lemma UpdateStatusIdempotentOnStore(store: Store, id: int, status: RequestStatus, notes: Option<string>, now: int)
    ensures var first := AdminRequestsController.UpdateStatus(store, id, status, notes, now);
      AdminRequestsController.UpdateStatus(first.store, id, status, notes, now).store == first.store
  {
    if FindRequestIndex(store.requests, id).Some? {
      UpdatedRequest(store, id, status, notes, now);
    }
  }

  /** Every stored request id was issued before the counter's current value, as `Valid` demands. */
  ghost predicate RequestIdsIssued(store: Store) {
    forall i :: 0 <= i < |store.requests| ==> store.requests[i].id < store.nextRequestId
  }

  /** The request just created is found under the id it was given. */
  lemma CreatedRequestFound(store: Store, q: Request)
    requires RequestIdsIssued(store) && q.id == store.nextRequestId
    ensures FindRequestIndex(store.requests + [q], q.id) == Some(|store.requests|)
  {
    var rs := store.requests + [q];
    assert rs[|store.requests|].id == q.id;
    assert forall j :: 0 <= j < |store.requests| ==> rs[j] == store.requests[j];
  }

  /**
   * A new request stays off the public pages until an administrator
   * approves it, although the matching stores were already alerted.
   */
  lemma NewRequestHiddenButAnnounced(session: Session, store: Store, form: RequestsController.CreateRequestForm,
                                     now: int, link: string)
    requires Valid(store)
    requires RequestsController.CreateRequestFormValid(form) && GetInt32(session, UserIdKey).Some?
    ensures var created := RequestsController.Create(session, store, form, true, now, link);
      var q := created.store.requests[|store.requests|];
      && RequestsController.Details(created.store, q.id).None?
      && created.outbox == NotifyStores(store.users, store.storeCategories, q, link, NullsEqual)
  {
    var created := RequestsController.Create(session, store, form, true, now, link);
    var q := created.store.requests[|store.requests|];
    assert created.store.requests == store.requests + [q];
    forall x | x in store.requests ensures x.id < q.id {
      var k :| 0 <= k < |store.requests| && store.requests[k] == x;
    }
  }

  /** The store messages of a request go to the same numbers, in the same order, whatever link they carry. */
  lemma RecipientsIgnoreLink(users: seq<User>, edges: seq<StoreCategory>, q: Request, link1: string, link2: string)
    ensures var a := NotifyStores(users, edges, q, link1, NullsEqual);
      var b := NotifyStores(users, edges, q, link2, NullsEqual);
      && |a| == |b|
      && forall k :: 0 <= k < |a| ==> a[k].to == b[k].to && a[k].channel == b[k].channel
  {
  }

  /** Approving the request just created writes the requester's message, then the store messages again. */
  lemma ApprovalOfNewRequest(session: Session, store: Store, form: RequestsController.CreateRequestForm,
                             now: int, link: string, notes: Option<string>, t: int)
    requires RequestIdsIssued(store)
    requires RequestsController.CreateRequestFormValid(form) && GetInt32(session, UserIdKey).Some?
    ensures var created := RequestsController.Create(session, store, form, true, now, link);
      var q := created.store.requests[|store.requests|];
      AdminRequestsController.UpdateStatus(created.store, q.id, Approved, notes, t).outbox
        == AdminRequestsController.NotifyUserAboutApproval(store.users, q)
           + NotifyStores(store.users, store.storeCategories, q, AdminRequestsController.PlaceholderLink, NullsEqual)
  {
    var created := RequestsController.Create(session, store, form, true, now, link);
    var q := created.store.requests[|store.requests|];
    CreatedRequestFound(store, q);
    UpdatedRequest(created.store, q.id, Approved, notes, t);
    NotificationsReadOnlyUsersAndEdges(created.store, store, q);
  }

  /** `later`, after its first `skip` messages, goes to the numbers of `earlier`, one for one, on the same channels. */
  ghost predicate RepeatsRecipients(later: seq<Message>, skip: nat, earlier: seq<Message>) {
    && |later| == skip + |earlier|
    && forall k :: 0 <= k < |earlier| ==> later[skip + k].to == earlier[k].to && later[skip + k].channel == earlier[k].channel
  }

  /**
   * Creating and then approving a request alerts the same stores twice:
   * after the requester's own message, the approval's store messages go,
   * one for one, to the numbers the creation already wrote to.
   */
  lemma StoresAlertedOnCreateAndOnApproval(session: Session, store: Store, form: RequestsController.CreateRequestForm,
                                           now: int, link: string, notes: Option<string>, t: int)
    requires RequestIdsIssued(store)
    requires RequestsController.CreateRequestFormValid(form) && GetInt32(session, UserIdKey).Some?
    ensures var created := RequestsController.Create(session, store, form, true, now, link);
      var q := created.store.requests[|store.requests|];
      var approved := AdminRequestsController.UpdateStatus(created.store, q.id, Approved, notes, t);
      RepeatsRecipients(approved.outbox, |AdminRequestsController.NotifyUserAboutApproval(store.users, q)|, created.outbox)
  {
    var created := RequestsController.Create(session, store, form, true, now, link);
    var q := created.store.requests[|store.requests|];
    assert created.outbox == NotifyStores(store.users, store.storeCategories, q, link, NullsEqual);
    ApprovalOfNewRequest(session, store, form, now, link, notes, t);
    var approved := AdminRequestsController.UpdateStatus(created.store, q.id, Approved, notes, t);
    AlertedTwice(created.outbox, approved.outbox, AdminRequestsController.NotifyUserAboutApproval(store.users, q),
                 store.users, store.storeCategories, q, link);
  }

  lemma AlertedTwice(atCreation: seq<Message>, atApproval: seq<Message>, owner: seq<Message>,
                     users: seq<User>, edges: seq<StoreCategory>, q: Request, link: string)
    requires atCreation == NotifyStores(users, edges, q, link, NullsEqual)
    requires atApproval == owner + NotifyStores(users, edges, q, AdminRequestsController.PlaceholderLink, NullsEqual)
    ensures RepeatsRecipients(atApproval, |owner|, atCreation)
  {
    RecipientsIgnoreLink(users, edges, q, link, AdminRequestsController.PlaceholderLink);
    SameRecipientsAfter(owner, NotifyStores(users, edges, q, AdminRequestsController.PlaceholderLink, NullsEqual), atCreation);
  }

  /** Messages that go to the same numbers still do behind a common prefix. */
  lemma SameRecipientsAfter(prefix: seq<Message>, b: seq<Message>, a: seq<Message>)
    requires |a| == |b| && forall k :: 0 <= k < |a| ==> b[k].to == a[k].to && b[k].channel == a[k].channel
    ensures |prefix + b| == |prefix| + |a|
    ensures forall k :: 0 <= k < |a| ==>
      (prefix + b)[|prefix| + k].to == a[k].to && (prefix + b)[|prefix| + k].channel == a[k].channel
  {
  }
}

=== FILE: requests_controller.dfy ===
/**
 * The public request screens: the approved-request listing, the details
 * page, request creation (which alerts matching stores straight away, while
 * the request is still pending) and the two cascading sub-category lookups.
 */
module RequestsController {
  import opened Wrappers
  import opened Sessions
  import opened Entities
  import opened CategoryModels
  import opened WhatsApp
  import opened Mvc
  import opened Listing
  import opened Matching
  import AccountViewModels

  const PageSize: nat := 12

  datatype RequestsPage = RequestsPage(
    requests: seq<Request>,
    categories: seq<Category>,
    currentPage: int,
    totalPages: int,
    search: Option<string>,
    selectedCategoryId: Option<int>)

  /**
   * The public listing: approved requests only, narrowed by the search text
   * and the category when given, newest approval first, twelve per page.
   * The database rejects the query exactly when the 32-bit offset
   * `(page - 1) * 12`, which wraps around, is negative.
   */
  function Index(store: Store, search: Option<string>, categoryId: Option<int>, page: Int32): (r: Option<RequestsPage>)
    ensures r.None? <==> Wrap32((page - 1) * PageSize) < 0
    ensures r.Some? ==>
      && |r.value.requests| <= PageSize
      && SortedDescending(r.value.requests, ByApprovedAt)
      && (forall x :: x in r.value.requests ==>
            && x in store.requests && x.status == Approved && MatchesSearch(x, search)
            && (categoryId.None? || x.categoryId == categoryId.value))
      && r.value.totalPages == TotalPages(|Where(store.requests, PublicFilter(search, categoryId))|, PageSize)
      && r.value.currentPage == page
      && (forall c :: c in r.value.categories <==> c in store.categories && c.isActive)
    ensures r.Some? ==> exists ordered ::
      && multiset(ordered) == multiset(Where(store.requests, PublicFilter(search, categoryId)))
      && SortedDescending(ordered, ByApprovedAt)
      && PageOf(ordered, page, PageSize) == Some(r.value.requests)
  {
    match ListRequests(store.requests, PublicFilter(search, categoryId), ByApprovedAt, PageSize, page)
    case None => None
    case Some(p) =>
      Some(RequestsPage(p.items, ActiveCategories(store.categories), p.currentPage, p.totalPages, search, categoryId))
  }

  /** The first stored request with this id that is approved. */
  function FindApproved(rs: seq<Request>, id: int): (r: Option<Request>)
    ensures r.Some? ==> r.value in rs && r.value.id == id && r.value.status == Approved
    ensures r.None? <==> forall x :: x in rs ==> !(x.id == id && x.status == Approved)
  {
    if |rs| == 0 then None
    else if rs[0].id == id && rs[0].status == Approved then Some(rs[0])
    else FindApproved(rs[1..], id)
  }

  /** The details page: found only for an existing, approved request; otherwise NotFound. */
  function Details(store: Store, id: int): (r: Option<Request>)
    ensures r.Some? ==> r.value in store.requests && r.value.id == id && r.value.status == Approved
    ensures r.None? <==> forall x :: x in store.requests ==> !(x.id == id && x.status == Approved)
  {
    FindApproved(store.requests, id)
  }

  datatype CreateRequestForm = CreateRequestForm(
    title: string,
    description: string,
    categoryId: int,
    subCategory1Id: Option<int>,
    subCategory2Id: Option<int>,
    city: string,
    district: string,
    location: Option<string>)

  /** Title, description, city and district are required; the category id is a value type. */
  predicate CreateRequestFormValid(f: CreateRequestForm) {
    && AccountViewModels.Required(f.title)
    && AccountViewModels.Required(f.description)
    && AccountViewModels.Required(f.city)
    && AccountViewModels.Required(f.district)
  }

  /** The request a signed-in user's form creates: pending, owned by that user. */
  function NewRequest(store: Store, form: CreateRequestForm, userId: int, now: int): (q: Request)
    ensures q.status == Pending && q.userId == userId && q.id == store.nextRequestId
    ensures q.categoryId == form.categoryId && q.subCategory1Id == form.subCategory1Id && q.subCategory2Id == form.subCategory2Id
    ensures q.title == form.title && q.description == form.description
    ensures q.approvedAt.None? && q.adminNotes.None?
    ensures q.city == form.city && q.district == form.district && q.location == form.location && q.createdAt == now
  {
    Request(store.nextRequestId, form.title, form.description, form.categoryId, form.subCategory1Id, form.subCategory2Id,
            form.city, form.district, form.location, userId, Pending, now, None, None)
  }

  /**
   * POST Create. Without a signed-in user nothing is stored and the visitor
   * goes to Login. Otherwise one pending request is stored and the matching
   * stores are alerted at once, before any approval; `link` is the address
   * of the new request's details page.
   */
  function Create(session: Session, store: Store, form: CreateRequestForm, attributesOk: bool, now: int, link: string): (r: StoreStep)
    ensures !(CreateRequestFormValid(form) && attributesOk) ==>
      r.store == store && r.outbox == [] && r.outcome == Redisplay(AttributeErrors)
    ensures CreateRequestFormValid(form) && attributesOk && GetInt32(session, UserIdKey).None? ==>
      r.store == store && r.outbox == [] && r.outcome == RedirectTo(AccountLogin)
    ensures CreateRequestFormValid(form) && attributesOk && GetInt32(session, UserIdKey).Some? ==>
      && r.outcome == RedirectTo(RequestsIndex)
      && |r.store.requests| == |store.requests| + 1
      && r.store.requests[..|store.requests|] == store.requests
      && var q := r.store.requests[|store.requests|];
      && q.status == Pending && q.userId == GetInt32(session, UserIdKey).value
      && q.categoryId == form.categoryId && q.subCategory1Id == form.subCategory1Id && q.subCategory2Id == form.subCategory2Id
      && q.title == form.title
      && q == NewRequest(store, form, GetInt32(session, UserIdKey).value, now)
      && r.store == store.(requests := store.requests + [q], nextRequestId := store.nextRequestId + 1)
      && r.outbox == NotifyStores(store.users, store.storeCategories, q, link, NullsEqual)
  {
    if !(CreateRequestFormValid(form) && attributesOk) then
      StoreStep(store, [], Redisplay(AttributeErrors))
    else match GetInt32(session, UserIdKey)
      case None => StoreStep(store, [], RedirectTo(AccountLogin))
      case Some(userId) =>
        var q := NewRequest(store, form, userId, now);
        var st := store.(requests := store.requests + [q], nextRequestId := store.nextRequestId + 1);
        StoreStep(st, NotifyStores(st.users, st.storeCategories, q, link, NullsEqual), RedirectTo(RequestsIndex))
  }

  /** `GetSubCategories1`: exactly the active children of the category. */
  function GetSubCategories1(store: Store, categoryId: int): (r: seq<(int, string)>)
    ensures forall x :: x in r <==>
      exists s :: s in store.subCategories1 && s.categoryId == categoryId && s.isActive && x == (s.id, s.name)
  {
    ActiveChildrenOfCategory(store.subCategories1, categoryId)
  }

  /** `GetSubCategories2`: exactly the active children of the SubCategory1. */
  function GetSubCategories2(store: Store, subCategory1Id: int): (r: seq<(int, string)>)
    ensures forall x :: x in r <==>
      exists s :: s in store.subCategories2 && s.subCategory1Id == subCategory1Id && s.isActive && x == (s.id, s.name)
  {
    ActiveChildrenOfSubCategory1(store.subCategories2, subCategory1Id)
  }
}

=== FILE: sessions.dfy ===
/**
 * The per-visitor ASP.NET session: a string-keyed store whose values are
 * written either with `SetString` or with `SetInt32`. The 30-minute idle
 * timeout is an external "clear everything" event, the same as `Clear`.
 */
module Sessions {
  import opened Wrappers

  datatype Value = Text(text: string) | Int32(number: int)

  type Session = map<string, Value>

  const OtpKey: string := "OTP"
  const VerificationCodeKey: string := "VerificationCode"
  const PhoneNumberKey: string := "PhoneNumber"
  const LoginTypeKey: string := "LoginType"
  const PhoneVerifiedKey: string := "PhoneVerified"
  const UserIdKey: string := "UserId"
  const UserNameKey: string := "UserName"
  const UserTypeKey: string := "UserType"
  const IsLoggedInKey: string := "IsLoggedIn"

  /** The five keys a completed verification removes. */
  const VerificationKeys: set<string> :=
    {OtpKey, VerificationCodeKey, PhoneNumberKey, LoginTypeKey, PhoneVerifiedKey}

  /** The four keys a sign-in writes. */
  const SignInKeys: set<string> := {UserIdKey, UserNameKey, UserTypeKey, IsLoggedInKey}

  /** `GetString`: null unless the key holds a value written as a string. */
  function GetString(s: Session, key: string): (r: Option<string>)
    ensures r.Some? <==> key in s && s[key].Text?
    ensures r.Some? ==> s[key] == Text(r.value)
  {
    if key in s && s[key].Text? then Some(s[key].text) else None
  }

  /** `GetInt32`: null unless the key holds a value written as an integer. */
  function GetInt32(s: Session, key: string): (r: Option<int>)
    ensures r.Some? <==> key in s && s[key].Int32?
    ensures r.Some? ==> s[key] == Int32(r.value)
  {
    if key in s && s[key].Int32? then Some(s[key].number) else None
  }

  /** `string.IsNullOrEmpty` on a session read. */
  predicate IsNullOrEmpty(v: Option<string>) {
    v.None? || v.value == ""
  }

  /** The two sessions agree on every key outside `keys`. */
  ghost predicate SameOutside(a: Session, b: Session, keys: set<string>) {
    forall k :: k !in keys ==> (k in a <==> k in b) && (k in a ==> a[k] == b[k])
  }

  /** Frame agreement is inherited by a smaller session difference. */
  lemma SameOutsideWiden(a: Session, b: Session, keys: set<string>, more: set<string>)
    requires SameOutside(a, b, keys) && keys <= more
    ensures SameOutside(a, b, more)
  {
  }
}

=== FILE: store_invariants.dfy ===
/**
 * The store invariants every writing action keeps: identity keys are unique
 * and below their counters (`Entities.Valid`), and, for the taxonomy, that
 * every sub-category's parent is stored (`Entities.Linked`). The category
 * POSTs do not check the parent the GET pages check, so `Linked` is kept
 * only when the posted parent exists.
 */
module StoreInvariants {
  import opened Wrappers
  import opened Entities
  import opened CategoryModels
  import Sessions
  import AccountViewModels
  import AccountController
  import RequestsController
  import AdminRequestsController
  import AdminCategoriesController
  import Mvc

  /** A record appended under the counter's value keeps its table's keys, with the counter moved on. */
  lemma AppendKeepsCategoryKeys(cs: seq<Category>, x: Category, next: int)
    requires CategoryKeys(cs, next) && x.id == next
    ensures CategoryKeys(cs + [x], next + 1)
  {
  }

  lemma AppendKeepsSubCategory1Keys(ss: seq<SubCategory1>, x: SubCategory1, next: int)
    requires SubCategory1Keys(ss, next) && x.id == next
    ensures SubCategory1Keys(ss + [x], next + 1)
  {
  }

  lemma AppendKeepsSubCategory2Keys(ss: seq<SubCategory2>, x: SubCategory2, next: int)
    requires SubCategory2Keys(ss, next) && x.id == next
    ensures SubCategory2Keys(ss + [x], next + 1)
  {
  }

  lemma AppendKeepsRequestKeys(rs: seq<Request>, x: Request, next: int)
    requires RequestKeys(rs, next) && x.id == next
    ensures RequestKeys(rs + [x], next + 1)
  {
  }

  lemma AppendKeepsUserKeys(us: seq<User>, x: User, next: int)
    requires UserKeys(us, next) && x.id == next
    ensures UserKeys(us + [x], next + 1)
  {
  }

  /** Edges numbered consecutively from the counter keep the edge keys. */
  lemma AppendKeepsEdgeKeys(es: seq<StoreCategory>, added: seq<StoreCategory>, next: int)
    requires EdgeKeys(es, next)
    requires forall k :: 0 <= k < |added| ==> added[k].id == next + k
    ensures EdgeKeys(es + added, next + |added|)
  {
    var all := es + added;
    forall i, j | 0 <= i < j < |all| ensures all[i].id != all[j].id {
      if j >= |es| {
        assert all[j] == added[j - |es|];
        if i >= |es| { assert all[i] == added[i - |es|]; } else { assert all[i] == es[i]; }
      }
    }
  }

  /** Overwriting a request with one of the same key keeps the request keys. */
  lemma UpdateKeepsRequestKeys(rs: seq<Request>, i: nat, x: Request, next: int)
    requires RequestKeys(rs, next) && i < |rs| && x.id == rs[i].id
    ensures RequestKeys(rs[i := x], next)
  {
  }

  lemma CategoryCreateKeepsValid(store: Store, posted: Category, attributesOk: bool)
    requires Valid(store)
    ensures Valid(AdminCategoriesController.Create(store, posted, attributesOk).store)
  {
    AppendKeepsCategoryKeys(store.categories, posted.(id := store.nextCategoryId), store.nextCategoryId);
  }

  lemma SubCategory1CreateKeepsValid(store: Store, posted: SubCategory1, attributesOk: bool)
    requires Valid(store)
    ensures Valid(AdminCategoriesController.CreateSubCategory1(store, posted, attributesOk).store)
  {
    AppendKeepsSubCategory1Keys(store.subCategories1, posted.(id := store.nextSubCategory1Id), store.nextSubCategory1Id);
  }

  lemma SubCategory2CreateKeepsValid(store: Store, posted: SubCategory2, attributesOk: bool)
    requires Valid(store)
    ensures Valid(AdminCategoriesController.CreateSubCategory2(store, posted, attributesOk).store)
  {
    AppendKeepsSubCategory2Keys(store.subCategories2, posted.(id := store.nextSubCategory2Id), store.nextSubCategory2Id);
  }

  lemma TailKeepsCategoryKeys(cs: seq<Category>, next: int)
    requires |cs| > 0 && CategoryKeys(cs, next)
    ensures CategoryKeys(cs[1..], next)
    ensures forall c :: c in cs[1..] ==> c.id != cs[0].id
  {
    var tail := cs[1..];
    forall i, j | 0 <= i < j < |tail| ensures tail[i].id != tail[j].id {
      assert tail[i] == cs[i + 1] && tail[j] == cs[j + 1];
    }
    forall c | c in tail ensures c.id != cs[0].id {
      var k :| 0 <= k < |tail| && tail[k] == c;
      assert tail[k] == cs[k + 1];
    }
  }

  /** A key-unique head in front of a key-unique tail that avoids its key. */
  lemma ConsKeepsCategoryKeys(x: Category, rest: seq<Category>, next: int)
    requires CategoryKeys(rest, next) && x.id < next
    requires forall c :: c in rest ==> c.id != x.id
    ensures CategoryKeys([x] + rest, next)
  {
    var r := [x] + rest;
    forall i, j | 0 <= i < j < |r| ensures r[i].id != r[j].id {
      assert r[j] == rest[j - 1];
      if i > 0 { assert r[i] == rest[i - 1]; }
    }
  }

  /** Removing the first category with an id keeps the keys unique and bounded, and with unique keys no category with that id is left. */
  lemma {:induction false} RemoveKeepsCategoryKeys(cs: seq<Category>, id: int, next: int)
    requires CategoryKeys(cs, next)
    ensures CategoryKeys(AdminCategoriesController.RemoveCategory(cs, id), next)
    ensures forall c :: c in AdminCategoriesController.RemoveCategory(cs, id) ==> c.id != id
    decreases |cs|
  {
    if |cs| > 0 {
      TailKeepsCategoryKeys(cs, next);
      if cs[0].id != id {
        RemoveKeepsCategoryKeys(cs[1..], id, next);
        ConsKeepsCategoryKeys(cs[0], AdminCategoriesController.RemoveCategory(cs[1..], id), next);
      }
    }
  }

  lemma DeleteKeepsValid(store: Store, id: int)
    requires Valid(store)
    ensures Valid(AdminCategoriesController.Delete(store, id).store)
    ensures forall c :: c in AdminCategoriesController.Delete(store, id).store.categories ==> c.id != id
  {
    RemoveKeepsCategoryKeys(store.categories, id, store.nextCategoryId);
  }

  lemma RequestCreateKeepsValid(session: Sessions.Session, store: Store, form: RequestsController.CreateRequestForm,
                                attributesOk: bool, now: int, link: string)
    requires Valid(store)
    ensures Valid(RequestsController.Create(session, store, form, attributesOk, now, link).store)
  {
    var r := RequestsController.Create(session, store, form, attributesOk, now, link);
    if r.store != store {
      var q := r.store.requests[|store.requests|];
      assert q == RequestsController.NewRequest(store, form, Sessions.GetInt32(session, Sessions.UserIdKey).value, now);
      AppendKeepsRequestKeys(store.requests, q, store.nextRequestId);
    }
  }

  lemma UpdateStatusKeepsValid(store: Store, id: int, status: RequestStatus, adminNotes: Option<string>, now: int)
    requires Valid(store)
    ensures Valid(AdminRequestsController.UpdateStatus(store, id, status, adminNotes, now).store)
  {
    match FindRequestIndex(store.requests, id)
    case None =>
    case Some(i) =>
      var x := AdminRequestsController.WithStatus(store.requests[i], status, adminNotes, now);
      UpdateKeepsRequestKeys(store.requests, i, x, store.nextRequestId);
  }

  lemma CreateAccountKeepsValid(session: Sessions.Session, store: Store, form: AccountViewModels.CreateAccountForm,
                                attributesOk: bool, now: int, storedName: string)
    requires Valid(store)
    ensures Valid(AccountController.CreateAccount(session, store, form, attributesOk, now, storedName).store)
  {
    var r := AccountController.CreateAccount(session, store, form, attributesOk, now, storedName);
    if r.outcome == Mvc.RedirectTo(Mvc.HomeIndex) {
      var u := r.store.users[|store.users|];
      var ids := AccountController.ListedStoreCategories(form);
      AppendKeepsUserKeys(store.users, u, store.nextUserId);
      AppendKeepsEdgeKeys(store.storeCategories,
                          AccountController.NewStoreCategories(u.id, ids, store.nextStoreCategoryId, now),
                          store.nextStoreCategoryId);
    }
  }

  lemma CategoryCreateKeepsLinked(store: Store, posted: Category, attributesOk: bool)
    requires Linked(store)
    ensures Linked(AdminCategoriesController.Create(store, posted, attributesOk).store)
  {
    var after := AdminCategoriesController.Create(store, posted, attributesOk).store;
    forall s | s in after.subCategories1 ensures exists c :: c in after.categories && c.id == s.categoryId {
      var c :| c in store.categories && c.id == s.categoryId;
      assert c in after.categories;
    }
  }

  /** A SubCategory1 posted under a stored category keeps the taxonomy linked. */
  lemma SubCategory1CreateKeepsLinked(store: Store, posted: SubCategory1, attributesOk: bool)
    requires Linked(store)
    requires exists c :: c in store.categories && c.id == posted.categoryId
    ensures Linked(AdminCategoriesController.CreateSubCategory1(store, posted, attributesOk).store)
  {
    var after := AdminCategoriesController.CreateSubCategory1(store, posted, attributesOk).store;
    forall s | s in after.subCategories2 ensures exists p :: p in after.subCategories1 && p.id == s.subCategory1Id {
      var p :| p in store.subCategories1 && p.id == s.subCategory1Id;
      assert p in after.subCategories1;
    }
  }

  /**
   * The POST does not repeat the GET page's parent lookup: a valid
   * SubCategory1 naming a category that is not stored is inserted anyway.
   */
  lemma SubCategory1CreateAcceptsMissingParent(store: Store, posted: SubCategory1)
    requires SubCategory1Valid(posted)
    requires forall c :: c in store.categories ==> c.id != posted.categoryId
    ensures AdminCategoriesController.CreateSubCategory1Page(store, posted.categoryId, posted.createdAt).None?
    ensures !Linked(AdminCategoriesController.CreateSubCategory1(store, posted, true).store)
  {
    var after := AdminCategoriesController.CreateSubCategory1(store, posted, true).store;
    var s := after.subCategories1[|store.subCategories1|];
    assert s in after.subCategories1 && s.categoryId == posted.categoryId;
  }

  /** The same for a SubCategory2 naming a SubCategory1 that is not stored. */
  lemma SubCategory2CreateAcceptsMissingParent(store: Store, posted: SubCategory2)
    requires SubCategory2Valid(posted)
    requires forall p :: p in store.subCategories1 ==> p.id != posted.subCategory1Id
    ensures AdminCategoriesController.CreateSubCategory2Page(store, posted.subCategory1Id, posted.createdAt).None?
    ensures !Linked(AdminCategoriesController.CreateSubCategory2(store, posted, true).store)
  {
    var after := AdminCategoriesController.CreateSubCategory2(store, posted, true).store;
    var s := after.subCategories2[|store.subCategories2|];
    assert s in after.subCategories2 && s.subCategory1Id == posted.subCategory1Id;
  }

  /** In a valid, linked store a newly created category has no sub-categories to offer. */
  lemma FreshCategoryHasNoChildren(store: Store, posted: Category)
    requires Valid(store) && Linked(store) && CategoryValid(posted)
    ensures var after := AdminCategoriesController.Create(store, posted, true).store;
      RequestsController.GetSubCategories1(after, store.nextCategoryId) == []
  {
    var after := AdminCategoriesController.Create(store, posted, true).store;
    forall s | s in after.subCategories1 ensures s.categoryId != store.nextCategoryId {
      var c :| c in store.categories && c.id == s.categoryId;
      var k :| 0 <= k < |store.categories| && store.categories[k] == c;
    }
    NoMembersIsEmpty(RequestsController.GetSubCategories1(after, store.nextCategoryId));
  }

  lemma NoMembersIsEmpty<T>(r: seq<T>)
    requires forall x :: x !in r
    ensures r == []
  {
    if |r| > 0 {
      HeadIsMember(r);
      assert false;
    }
  }

  lemma HeadIsMember<T>(r: seq<T>)
    requires |r| > 0
    ensures r[0] in r
  {
  }

  /** Deleting a category that has a SubCategory1 leaves that SubCategory1 without a parent. */
  lemma DeleteOrphansChildren(store: Store, id: int)
    requires Valid(store)
    requires exists s :: s in store.subCategories1 && s.categoryId == id
    ensures !Linked(AdminCategoriesController.Delete(store, id).store)
  {
    DeleteKeepsValid(store, id);
    var after := AdminCategoriesController.Delete(store, id).store;
    var s :| s in store.subCategories1 && s.categoryId == id;
    assert s in after.subCategories1;
  }

  /** Two stored SubCategory1 rows with the same key are the same row. */
  lemma SameKeySameSubCategory1(ss: seq<SubCategory1>, next: int, a: SubCategory1, b: SubCategory1)
    requires SubCategory1Keys(ss, next) && a in ss && b in ss && a.id == b.id
    ensures a == b
  {
    var i :| 0 <= i < |ss| && ss[i] == a;
    var j :| 0 <= j < |ss| && ss[j] == b;
  }

  /** Two stored SubCategory2 rows with the same key are the same row. */
  lemma SameKeySameSubCategory2(ss: seq<SubCategory2>, next: int, a: SubCategory2, b: SubCategory2)
    requires SubCategory2Keys(ss, next) && a in ss && b in ss && a.id == b.id
    ensures a == b
  {
    var i :| 0 <= i < |ss| && ss[i] == a;
    var j :| 0 <= j < |ss| && ss[j] == b;
  }

  /** With unique keys, a stored SubCategory1's parent is the category it names. */
  lemma ParentOfStoredSubCategory1(st: Store, s: SubCategory1)
    requires SubCategory1Keys(st.subCategories1, st.nextSubCategory1Id) && s in st.subCategories1
    ensures Parent(st.subCategories1, st.subCategories2, SubCategory1Node(s.id)) == Some(CategoryNode(s.categoryId))
  {
    var found := FindSubCategory1(st.subCategories1, s.id);
    assert found.Some?;
    SameKeySameSubCategory1(st.subCategories1, st.nextSubCategory1Id, found.value, s);
  }

  /** With unique keys, a stored SubCategory2's parent is the SubCategory1 it names. */
  lemma ParentOfStoredSubCategory2(st: Store, s: SubCategory2)
    requires SubCategory2Keys(st.subCategories2, st.nextSubCategory2Id) && s in st.subCategories2
    ensures Parent(st.subCategories1, st.subCategories2, SubCategory2Node(s.id)) == Some(SubCategory1Node(s.subCategory1Id))
  {
    var found := FindSubCategory2(st.subCategories2, s.id);
    assert found.Some?;
    SameKeySameSubCategory2(st.subCategories2, st.nextSubCategory2Id, found.value, s);
  }

  /** In a linked store every stored SubCategory1 climbs in one step to a stored category, and no further. */
  lemma LinkedSubCategory1ReachesCategory(st: Store, s: SubCategory1)
    requires Valid(st) && Linked(st) && s in st.subCategories1
    ensures exists c ::
      && c in st.categories && c.id == s.categoryId
      && Ancestors(st.subCategories1, st.subCategories2, SubCategory1Node(s.id)) == [CategoryNode(c.id)]
  {
    var c :| c in st.categories && c.id == s.categoryId;
    ParentOfStoredSubCategory1(st, s);
    assert Ancestors(st.subCategories1, st.subCategories2, CategoryNode(c.id)) == [];
  }

  /**
   * In a linked store every stored SubCategory2 climbs in exactly two steps,
   * through a stored SubCategory1, to a stored category.
   */
  lemma LinkedSubCategory2ReachesCategory(st: Store, s: SubCategory2)
    requires Valid(st) && Linked(st) && s in st.subCategories2
    ensures exists p, c ::
      && p in st.subCategories1 && c in st.categories
      && p.id == s.subCategory1Id && c.id == p.categoryId
      && Ancestors(st.subCategories1, st.subCategories2, SubCategory2Node(s.id)) == [SubCategory1Node(p.id), CategoryNode(c.id)]
  {
    var p :| p in st.subCategories1 && p.id == s.subCategory1Id;
    ParentOfStoredSubCategory2(st, s);
    LinkedSubCategory1ReachesCategory(st, p);
  }
}

=== FILE: text.dfy ===
/**
 * String facts the .NET code relies on: ordinal containment, `TrimStart`,
 * `char.IsWhiteSpace`, UTF-16 length, decimal formatting and the `\d` class
 * of .NET regular expressions.
 */
module Text {

  /** Ordinal `String.Contains`: `needle` occurs as a contiguous slice of `hay`. */
  predicate Contains(hay: string, needle: string)
    decreases |hay|
  {
    if |needle| > |hay| then false
    else if hay[..|needle|] == needle then true
    else Contains(hay[1..], needle)
  }

  /** Whatever surrounds it, a string contains itself. */
  lemma {:induction false} ContainsMiddle(before: string, x: string, after: string)
    ensures Contains(before + x + after, x)
    decreases |before|
  {
    var hay := before + x + after;
    if |before| == 0 {
      assert hay[..|x|] == x;
    } else {
      assert hay[1..] == before[1..] + x + after;
      ContainsMiddle(before[1..], x, after);
      if hay[..|x|] != x {
        assert Contains(hay[1..], x);
      }
    }
  }

  /** `Contains` is exactly "some slice equals the needle". */
  lemma {:induction false} ContainsIsSlice(hay: string, needle: string, k: nat)
    requires k + |needle| <= |hay| && hay[k..k + |needle|] == needle
    ensures Contains(hay, needle)
    decreases k
  {
    if k > 0 && hay[..|needle|] != needle {
      assert hay[1..][k - 1..k - 1 + |needle|] == hay[k..k + |needle|];
      ContainsIsSlice(hay[1..], needle, k - 1);
    }
  }

  /** `char.IsWhiteSpace`: Unicode categories Zs, Zl, Zp plus U+0009..U+000D and U+0085. */
  predicate IsWhiteSpace(c: char) {
    || ('\t' <= c <= '\r')
    || c == ' ' || c == '\U{85}' || c == '\U{A0}' || c == '\U{1680}'
    || ('\U{2000}' <= c <= '\U{200A}')
    || c == '\U{2028}' || c == '\U{2029}' || c == '\U{202F}' || c == '\U{205F}' || c == '\U{3000}'
  }

  /** `string.IsNullOrWhiteSpace` for a non-null string (null is modelled as ""). */
  predicate IsBlank(s: string) {
    forall i :: 0 <= i < |s| ==> IsWhiteSpace(s[i])
  }

  /** `String.Length`: UTF-16 code units, so a character outside the BMP counts twice. */
  function Utf16Length(s: string): (n: nat)
    ensures |s| <= n <= 2 * |s|
    ensures (forall i :: 0 <= i < |s| ==> s[i] <= '\U{FFFF}') ==> n == |s|
  {
    if |s| == 0 then 0
    else (if s[0] <= '\U{FFFF}' then 1 else 2) + Utf16Length(s[1..])
  }

  /** `s.TrimStart(c)`: drops every leading `c`, not just the first. */
  function TrimStart(s: string, c: char): (r: string)
    ensures |r| <= |s| && r == s[|s| - |r|..]
    ensures forall i :: 0 <= i < |s| - |r| ==> s[i] == c
    ensures r == [] || r[0] != c
  {
    if |s| > 0 && s[0] == c then TrimStart(s[1..], c) else s
  }

  predicate IsAsciiDigit(c: char) {
    '0' <= c <= '9'
  }

  /**
   * `\d` in a .NET regular expression is the Unicode class Nd, not just 0-9.
   * Listed here: ASCII, Arabic-Indic, Extended Arabic-Indic, NKo, the Indic
   * scripts, Thai, Lao, Tibetan, Myanmar, Khmer, Mongolian and fullwidth digits.
   */
  predicate IsRegexDigit(c: char) {
    || IsAsciiDigit(c)
    || ('٠' <= c <= '٩') || ('۰' <= c <= '۹') || ('߀' <= c <= '߉')
    || ('०' <= c <= '९') || ('০' <= c <= '৯') || ('੦' <= c <= '੯')
    || ('૦' <= c <= '૯') || ('୦' <= c <= '୯') || ('௦' <= c <= '௯')
    || ('౦' <= c <= '౯') || ('೦' <= c <= '೯') || ('൦' <= c <= '൯')
    || ('๐' <= c <= '๙') || ('໐' <= c <= '໙') || ('༠' <= c <= '༩')
    || ('၀' <= c <= '၉') || ('០' <= c <= '៩') || ('᠐' <= c <= '᠙')
    || ('０' <= c <= '９')
  }

  function DigitChar(d: int): (c: char)
    requires 0 <= d < 10
    ensures IsAsciiDigit(c) && (c as int) - ('0' as int) == d
  {
    ((d + '0' as int) as char)
  }

  function DigitValue(c: char): int
    requires IsAsciiDigit(c)
  {
    (c as int) - ('0' as int)
  }

  /** `int.ToString()` for a non-negative value: decimal, no leading zeros. */
  function DecimalString(n: nat): (s: string)
    ensures |s| >= 1 && forall i :: 0 <= i < |s| ==> IsAsciiDigit(s[i])
    ensures s[0] == '0' ==> n == 0
    decreases n
  {
    if n < 10 then [DigitChar(n)] else DecimalString(n / 10) + [DigitChar(n % 10)]
  }

  /** `int.Parse` for a string of ASCII digits. */
  function DecimalValue(s: string): nat
    requires forall i :: 0 <= i < |s| ==> IsAsciiDigit(s[i])
  {
    if |s| == 0 then 0 else DecimalValue(s[..|s| - 1]) * 10 + DigitValue(s[|s| - 1])
  }

  /** Formatting then parsing gives the number back. */
  lemma {:induction false} DecimalRoundTrip(n: nat)
    ensures DecimalValue(DecimalString(n)) == n
    decreases n
  {
    var s := DecimalString(n);
    if n >= 10 {
      var p := DecimalString(n / 10);
      assert s == p + [DigitChar(n % 10)];
      assert s[..|s| - 1] == p;
      DecimalRoundTrip(n / 10);
    } else {
      assert s[..|s| - 1] == [];
    }
  }

  /** Every number from 1000 to 9999 prints as exactly four digits. */
  lemma FourDigitString(n: nat)
    requires 1000 <= n <= 9999
    ensures |DecimalString(n)| == 4
  {
    assert |DecimalString(n / 1000)| == 1;
    assert |DecimalString(n / 100)| == 2;
    assert |DecimalString(n / 10)| == 3;
  }

  function ToLowerAsciiChar(c: char): char {
    if 'A' <= c <= 'Z' then (c as int + 32) as char else c
  }

  /** `ToLowerInvariant`, restricted to the ASCII letters. */
  function ToLowerAscii(s: string): (r: string)
    ensures |r| == |s|
    ensures forall i :: 0 <= i < |s| ==> r[i] == ToLowerAsciiChar(s[i])
  {
    if |s| == 0 then [] else [ToLowerAsciiChar(s[0])] + ToLowerAscii(s[1..])
  }
}

=== FILE: verification_runs.dfy ===
/**
 * Sequences of visits to the account pages over one session. The session is
 * the only memory the verification flow has, so a run shows which code
 * could have set `PhoneVerified` for the number CreateAccount registers.
 *
 * Login as written keeps every other key, a stale `PhoneVerified` from an
 * earlier flow included; `LoginResettingVerification` starts each issued
 * code with the verification keys cleared, and under it a verified number
 * was always verified with the code most recently sent to it.
 */
module VerificationRuns {
  import opened Wrappers
  import opened Sessions
  import opened Entities
  import opened AccountViewModels
  import opened WhatsApp
  import opened Mvc
  import opened AccountController
  import AccountProperties

  /** One request a browser makes against the account pages. */
  datatype Visit =
    | LoginVisit(loginForm: LoginForm, loginOk: bool, draw: OtpDraw)
    | VerifyOtpVisit(otpForm: VerifyOtpForm, otpOk: bool)
    | VerifyPhoneVisit(phoneForm: VerifyPhoneForm, phoneOk: bool)
    | CreateAccountVisit(accountForm: CreateAccountForm, accountOk: bool, now: int, storedName: string)
    | ResendVisit
    | LogoutVisit
      /** The idle timeout: the session store forgets every key. */
    | SessionExpiry

  datatype LoginVariant = AsWritten | ResetsVerification

  datatype State = State(session: Session, store: Store, sent: seq<Message>)

  /** A Login that issues a code clears the verification keys of any earlier flow first. */
  function LoginResettingVerification(session: Session, store: Store, form: LoginForm, attributesOk: bool,
                                      draw: OtpDraw): (r: Step)
    ensures r.store == store
    ensures !(LoginFormValid(form) && attributesOk) ==> r.session == session
    ensures LoginFormValid(form) && attributesOk ==>
      && GetString(r.session, PhoneVerifiedKey).None?
      && SameOutside(session, r.session, VerificationKeys)
  {
    if LoginFormValid(form) && attributesOk then
      ClearThenIssue(session, store, NormalizePhone(form.countryCode, form.phoneNumber), GenerateOtp(draw))
    else
      Login(session, store, form, attributesOk, draw)
  }

  /** The corrected Login once the form is valid: clear the verification keys, then issue `code` to `phone`. */
  function ClearThenIssue(session: Session, store: Store, phone: string, code: string): (r: Step)
    ensures r.store == store
    ensures GetString(r.session, PhoneVerifiedKey).None?
    ensures SameOutside(session, r.session, VerificationKeys)
  {
    var cleared := ClearVerification(session);
    var sent := [OtpMessage(phone, code)];
    if FindUserByPhone(store.users, phone).Some? then
      var next := PendingLogin(cleared, phone, code);
      SameOutsideChain(session, cleared, next, VerificationKeys, {OtpKey, PhoneNumberKey, LoginTypeKey});
      Step(next, store, sent, RedirectTo(AccountVerifyOtp))
    else
      var next := PendingRegistration(cleared, phone, code);
      SameOutsideChain(session, cleared, next, VerificationKeys, {VerificationCodeKey, PhoneNumberKey, LoginTypeKey});
      Step(next, store, sent, RedirectTo(AccountVerifyPhone))
  }

  /** Two edits confined to the verification keys are together confined to them. */
  lemma SameOutsideChain(a: Session, b: Session, c: Session, keys: set<string>, inner: set<string>)
    requires SameOutside(a, b, keys) && SameOutside(b, c, inner) && inner <= keys
    ensures SameOutside(a, c, keys)
  {
  }

  /** Resetting changes nothing the browser sees: the same code goes out and the same redirect comes back. */
  lemma ResettingLoginReplies(session: Session, store: Store, form: LoginForm, attributesOk: bool, draw: OtpDraw)
    ensures var r := LoginResettingVerification(session, store, form, attributesOk, draw);
      && r.outcome == Login(session, store, form, attributesOk, draw).outcome
      && r.outbox == Login(session, store, form, attributesOk, draw).outbox
  {
    LoginReplyIgnoresSession(session, ClearVerification(session), store, form, attributesOk, draw);
  }

  /** After a resetting Login the only registration code pending is the one just sent, to the number just entered. */
  lemma ResettingLoginCode(session: Session, store: Store, form: LoginForm, draw: OtpDraw)
    requires LoginFormValid(form)
    ensures var r := LoginResettingVerification(session, store, form, true, draw);
      var phone := NormalizePhone(form.countryCode, form.phoneNumber);
      && GetString(r.session, PhoneNumberKey) == Some(phone)
      && (FindUserByPhone(store.users, phone).None? ==>
            GetString(r.session, VerificationCodeKey) == Some(GenerateOtp(draw)))
      && (FindUserByPhone(store.users, phone).Some? ==>
            GetString(r.session, VerificationCodeKey).None?)
  {
    var cleared := ClearVerification(session);
    assert VerificationCodeKey !in {OtpKey, PhoneNumberKey, LoginTypeKey};
    assert GetString(cleared, VerificationCodeKey).None?;
  }

  /** What Login sends and where it redirects depend on the form and the store, not on the session. */
  lemma LoginReplyIgnoresSession(a: Session, b: Session, store: Store, form: LoginForm, attributesOk: bool, draw: OtpDraw)
    ensures Login(a, store, form, attributesOk, draw).outbox == Login(b, store, form, attributesOk, draw).outbox
    ensures Login(a, store, form, attributesOk, draw).outcome == Login(b, store, form, attributesOk, draw).outcome
  {
  }

  function Apply(v: Visit, st: State, variant: LoginVariant): State {
    match v
    case LoginVisit(form, ok, draw) =>
      var r := if variant == AsWritten then Login(st.session, st.store, form, ok, draw)
               else LoginResettingVerification(st.session, st.store, form, ok, draw);
      State(r.session, r.store, st.sent + r.outbox)
    case VerifyOtpVisit(form, ok) =>
      var r := VerifyOtp(st.session, st.store, form, ok);
      State(r.session, r.store, st.sent + r.outbox)
    case VerifyPhoneVisit(form, ok) =>
      var r := VerifyPhone(st.session, st.store, form, ok);
      State(r.session, r.store, st.sent + r.outbox)
    case CreateAccountVisit(form, ok, now, storedName) =>
      var r := CreateAccount(st.session, st.store, form, ok, now, storedName);
      State(r.session, r.store, st.sent + r.outbox)
    case ResendVisit =>
      var r := ResendCode(st.session, st.store);
      State(r.session, r.store, st.sent + r.outbox)
    case LogoutVisit =>
      var r := Logout(st.session, st.store);
      State(r.session, r.store, st.sent + r.outbox)
    case SessionExpiry =>
      State(map[], st.store, st.sent)
  }

  /** The state after the visits, in order. */
  function Run(vs: seq<Visit>, start: State, variant: LoginVariant): State
    decreases |vs|
  {
    if |vs| == 0 then start
    else Apply(vs[|vs| - 1], Run(vs[..|vs| - 1], start, variant), variant)
  }

  /** A Login visit that passes validation, and so sends a code. */
  predicate IssuesCode(v: Visit) {
    v.LoginVisit? && LoginFormValid(v.loginForm) && v.loginOk
  }

  function IssuedNumber(v: Visit): string
    requires v.LoginVisit?
  {
    NormalizePhone(v.loginForm.countryCode, v.loginForm.phoneNumber)
  }

  /** Visit `i` issued a code and no later visit issued another. */
  ghost predicate LastIssue(vs: seq<Visit>, i: int) {
    0 <= i < |vs| && IssuesCode(vs[i]) && forall m :: i < m < |vs| ==> !IssuesCode(vs[m])
  }

  /** A pending registration code is the code last sent, to the number pending. */
  ghost predicate CodeTraced(vs: seq<Visit>, s: Session) {
    GetString(s, VerificationCodeKey).Some? ==>
      exists i :: LastIssue(vs, i)
        && GetString(s, VerificationCodeKey) == Some(GenerateOtp(vs[i].draw))
        && GetString(s, PhoneNumberKey) == Some(IssuedNumber(vs[i]))
  }

  /**
   * The pending number is marked verified only if, after the last code was
   * issued to that number, a VerifyPhone visit submitted exactly that code.
   */
  ghost predicate VerifiedByLatestCode(vs: seq<Visit>, s: Session) {
    GetString(s, PhoneVerifiedKey) == Some("true") ==>
      exists i, j :: LastIssue(vs, i) && i < j < |vs|
        && vs[j].VerifyPhoneVisit?
        && vs[j].phoneForm.verificationCode == GenerateOtp(vs[i].draw)
        && GetString(s, PhoneNumberKey) == Some(IssuedNumber(vs[i]))
  }

  /** A visit that issues no code keeps both traces of a session it leaves alone. */
  lemma CarryOver(pre: seq<Visit>, v: Visit, s: Session)
    requires !IssuesCode(v)
    requires CodeTraced(pre, s) && VerifiedByLatestCode(pre, s)
    ensures CodeTraced(pre + [v], s) && VerifiedByLatestCode(pre + [v], s)
  {
    var vs := pre + [v];
    forall i | LastIssue(pre, i) ensures LastIssue(vs, i) {
      assert vs[i] == pre[i];
      forall m | i < m < |vs| ensures !IssuesCode(vs[m]) {
        if m < |pre| { assert vs[m] == pre[m]; }
      }
    }
    if GetString(s, VerificationCodeKey).Some? {
      var i :| LastIssue(pre, i)
        && GetString(s, VerificationCodeKey) == Some(GenerateOtp(pre[i].draw))
        && GetString(s, PhoneNumberKey) == Some(IssuedNumber(pre[i]));
      assert vs[i] == pre[i];
    }
    if GetString(s, PhoneVerifiedKey) == Some("true") {
      var i, j :| LastIssue(pre, i) && i < j < |pre|
        && pre[j].VerifyPhoneVisit?
        && pre[j].phoneForm.verificationCode == GenerateOtp(pre[i].draw)
        && GetString(s, PhoneNumberKey) == Some(IssuedNumber(pre[i]));
      assert vs[i] == pre[i] && vs[j] == pre[j];
    }
  }

  /** A session no verification flow has touched yet. */
  predicate NoVerification(s: Session) {
    GetString(s, VerificationCodeKey).None? && GetString(s, PhoneVerifiedKey).None?
  }

  /** One visit under the resetting Login keeps both traces. */
  lemma StepKeepsTraces(pre: seq<Visit>, v: Visit, st: State)
    requires CodeTraced(pre, st.session) && VerifiedByLatestCode(pre, st.session)
    ensures CodeTraced(pre + [v], Apply(v, st, ResetsVerification).session)
    ensures VerifiedByLatestCode(pre + [v], Apply(v, st, ResetsVerification).session)
  {
    match v
    case LoginVisit(form, ok, draw) => LoginStepKeepsTraces(pre, v, st);
    case VerifyPhoneVisit(form, ok) => VerifyPhoneStepKeepsTraces(pre, v, st);
    case VerifyOtpVisit(form, ok) =>
      var s1 := Apply(v, st, ResetsVerification).session;
      if s1 == st.session {
        CarryOver(pre, v, st.session);
      } else {
        assert VerificationCodeKey in VerificationKeys && PhoneVerifiedKey in VerificationKeys;
      }
    case CreateAccountVisit(form, ok, now, storedName) =>
      var s1 := Apply(v, st, ResetsVerification).session;
      if s1 == st.session {
        CarryOver(pre, v, st.session);
      } else {
        assert VerificationCodeKey in VerificationKeys && PhoneVerifiedKey in VerificationKeys;
      }
    case ResendVisit => CarryOver(pre, v, st.session);
    case LogoutVisit =>
    case SessionExpiry =>
  }

  lemma LoginStepKeepsTraces(pre: seq<Visit>, v: Visit, st: State)
    requires v.LoginVisit?
    requires CodeTraced(pre, st.session) && VerifiedByLatestCode(pre, st.session)
    ensures CodeTraced(pre + [v], Apply(v, st, ResetsVerification).session)
    ensures VerifiedByLatestCode(pre + [v], Apply(v, st, ResetsVerification).session)
  {
    var vs := pre + [v];
    var s1 := Apply(v, st, ResetsVerification).session;
    if IssuesCode(v) {
      ResettingLoginCode(st.session, st.store, v.loginForm, v.draw);
      assert LastIssue(vs, |pre|);
    } else {
      CarryOver(pre, v, st.session);
    }
  }

  lemma VerifyPhoneStepKeepsTraces(pre: seq<Visit>, v: Visit, st: State)
    requires v.VerifyPhoneVisit?
    requires CodeTraced(pre, st.session) && VerifiedByLatestCode(pre, st.session)
    ensures CodeTraced(pre + [v], Apply(v, st, ResetsVerification).session)
    ensures VerifiedByLatestCode(pre + [v], Apply(v, st, ResetsVerification).session)
  {
    var vs := pre + [v];
    var s0 := st.session;
    var r := VerifyPhone(s0, st.store, v.phoneForm, v.phoneOk);
    assert Apply(v, st, ResetsVerification).session == r.session;
    CarryOver(pre, v, s0);
    if r.outcome == RedirectTo(AccountCreate) {
      VerifiedPhoneKeepsCode(s0, r.session);
      var i :| LastIssue(vs, i)
        && GetString(s0, VerificationCodeKey) == Some(GenerateOtp(vs[i].draw))
        && GetString(s0, PhoneNumberKey) == Some(IssuedNumber(vs[i]));
      assert vs[|pre|] == v;
      assert v.phoneForm.verificationCode == GenerateOtp(vs[i].draw);
      assert LastIssue(vs, i) && i < |pre| < |vs|;
    }
  }

  /** Marking the number verified leaves the pending number and code as they were. */
  lemma VerifiedPhoneKeepsCode(s0: Session, s1: Session)
    requires SameOutside(s0, s1, {PhoneVerifiedKey})
    ensures GetString(s1, PhoneNumberKey) == GetString(s0, PhoneNumberKey)
    ensures GetString(s1, VerificationCodeKey) == GetString(s0, VerificationCodeKey)
  {
    assert PhoneNumberKey !in {PhoneVerifiedKey} && VerificationCodeKey !in {PhoneVerifiedKey};
  }

  /**
   * With the resetting Login, on every run from a session without a pending
   * flow, a pending registration code is the last one sent, to the pending
   * number, and a verified number was verified by submitting that code.
   */
  lemma {:induction false} ResettingRunVerifiesLatestCode(vs: seq<Visit>, start: State)
    requires NoVerification(start.session)
    ensures CodeTraced(vs, Run(vs, start, ResetsVerification).session)
    ensures VerifiedByLatestCode(vs, Run(vs, start, ResetsVerification).session)
    decreases |vs|
  {
    if |vs| > 0 {
      var pre := vs[..|vs| - 1];
      assert vs == pre + [vs[|vs| - 1]];
      ResettingRunVerifiesLatestCode(pre, start);
      StepKeepsTraces(pre, vs[|vs| - 1], Run(pre, start, ResetsVerification));
    }
  }

  /** Three visits in order. */
  lemma RunOfThree(x: Visit, y: Visit, z: Visit, start: State, variant: LoginVariant)
    ensures Run([x, y, z], start, variant) == Apply(z, Apply(y, Apply(x, start, variant), variant), variant)
  {
    var vs := [x, y, z];
    assert vs[..2] == [x, y] && [x, y][..1] == [x] && [x][..0] == [];
    assert Run([x], start, variant) == Apply(x, start, variant);
    assert Run([x, y], start, variant) == Apply(y, Run([x], start, variant), variant);
  }

  /** Register number `a` with its code, then ask for a code for number `b`. */
  function SwitchAfterVerifying(a: LoginForm, da: OtpDraw, b: LoginForm, db: OtpDraw): seq<Visit> {
    [LoginVisit(a, true, da), VerifyPhoneVisit(VerifyPhoneForm(GenerateOtp(da)), true), LoginVisit(b, true, db)]
  }

  predicate Unregistered(store: Store, f: LoginForm) {
    forall u :: u in store.users ==> u.phoneNumber != NormalizePhone(f.countryCode, f.phoneNumber)
  }

  /** First visit of the scenario: an unregistered number gets a registration code. */
  lemma FirstLoginStep(store: Store, a: LoginForm, da: OtpDraw, variant: LoginVariant)
    requires LoginFormValid(a) && Unregistered(store, a)
    ensures var st := Apply(LoginVisit(a, true, da), State(map[], store, []), variant);
      && st.store == store
      && GetString(st.session, VerificationCodeKey) == Some(GenerateOtp(da))
  {
    assert FindUserByPhone(store.users, NormalizePhone(a.countryCode, a.phoneNumber)).None?;
    if variant == ResetsVerification {
      ResettingLoginCode(map[], store, a, da);
    }
  }

  /** Second visit: submitting the pending code marks the number verified. */
  lemma CorrectCodeStep(st: State, code: string, variant: LoginVariant)
    requires GetString(st.session, VerificationCodeKey) == Some(code) && FourDigitCode(code)
    ensures var next := Apply(VerifyPhoneVisit(VerifyPhoneForm(code), true), st, variant);
      && next.store == st.store
      && GetString(next.session, PhoneVerifiedKey) == Some("true")
  {
  }

  /** Third visit under Login as written: the new number is pending and still marked verified. */
  lemma AsWrittenSecondLoginStep(st: State, b: LoginForm, db: OtpDraw)
    requires LoginFormValid(b) && Unregistered(st.store, b)
    requires GetString(st.session, PhoneVerifiedKey) == Some("true")
    ensures var next := Apply(LoginVisit(b, true, db), st, AsWritten);
      && next.store == st.store
      && GetString(next.session, PhoneVerifiedKey) == Some("true")
      && GetString(next.session, PhoneNumberKey) == Some(NormalizePhone(b.countryCode, b.phoneNumber))
  {
    assert FindUserByPhone(st.store.users, NormalizePhone(b.countryCode, b.phoneNumber)).None?;
    AccountProperties.LoginKeepsPhoneVerified(st.session, st.store, b, db);
  }

  /** CreateAccount with a verified pending number that nobody owns appends a verified user with that number. */
  lemma RegisterStep(st: State, account: CreateAccountForm, now: int, storedName: string, variant: LoginVariant)
    requires VerifiedPhonePending(st.session)
    requires forall u :: u in st.store.users ==> Some(u.phoneNumber) != GetString(st.session, PhoneNumberKey)
    requires CreateAccountFormValid(account) && account.profile.email.None?
    ensures var done := Apply(CreateAccountVisit(account, true, now, storedName), st, variant);
      && |done.store.users| == |st.store.users| + 1
      && Some(done.store.users[|st.store.users|].phoneNumber) == GetString(st.session, PhoneNumberKey)
      && done.store.users[|st.store.users|].isPhoneVerified
  {
    assert FindUserByPhone(st.store.users, GetString(st.session, PhoneNumberKey).value).None?;
  }

  /** CreateAccount without a verified number changes nothing and sends the browser to Login. */
  lemma RefusedStep(st: State, account: CreateAccountForm, now: int, storedName: string, variant: LoginVariant)
    requires GetString(st.session, PhoneVerifiedKey).None? && CreateAccountFormValid(account)
    ensures Apply(CreateAccountVisit(account, true, now, storedName), st, variant).store == st.store
    ensures CreateAccount(st.session, st.store, account, true, now, storedName).outcome == RedirectTo(AccountLogin)
  {
  }

  /**
   * As written, the flag set by verifying `a` survives the Login for `b`:
   * the session says `b` is verified although `b`'s code was never
   * submitted, and CreateAccount registers `b` as a verified number.
   */
  lemma AsWrittenRegistersUnverifiedNumber(store: Store, a: LoginForm, da: OtpDraw, b: LoginForm, db: OtpDraw,
                                           account: CreateAccountForm, now: int, storedName: string)
    requires LoginFormValid(a) && LoginFormValid(b) && Unregistered(store, a) && Unregistered(store, b)
    requires NormalizePhone(b.countryCode, b.phoneNumber) != ""
    requires CreateAccountFormValid(account) && account.profile.email.None?
    ensures var vs := SwitchAfterVerifying(a, da, b, db);
      var st := Run(vs, State(map[], store, []), AsWritten);
      var done := Apply(CreateAccountVisit(account, true, now, storedName), st, AsWritten);
      && GetString(st.session, PhoneVerifiedKey) == Some("true")
      && !VerifiedByLatestCode(vs, st.session)
      && |done.store.users| == |store.users| + 1
      && done.store.users[|store.users|].phoneNumber == NormalizePhone(b.countryCode, b.phoneNumber)
      && done.store.users[|store.users|].isPhoneVerified
  {
    var vs := SwitchAfterVerifying(a, da, b, db);
    var start := State(map[], store, []);
    RunOfThree(vs[0], vs[1], vs[2], start, AsWritten);
    var st1 := Apply(vs[0], start, AsWritten);
    FirstLoginStep(store, a, da, AsWritten);
    var st2 := Apply(vs[1], st1, AsWritten);
    CorrectCodeStep(st1, GenerateOtp(da), AsWritten);
    var st := Apply(vs[2], st2, AsWritten);
    AsWrittenSecondLoginStep(st2, b, db);
    assert vs == [vs[0], vs[1], vs[2]];
    RegisterStep(st, account, now, storedName, AsWritten);
    assert IssuesCode(vs[2]);
    forall i | LastIssue(vs, i) ensures i == 2 {
    }
  }

  /** The same visits with the resetting Login: `b` is not verified, and CreateAccount sends the browser back to Login. */
  lemma ResettingRefusesUnverifiedNumber(store: Store, a: LoginForm, da: OtpDraw, b: LoginForm, db: OtpDraw,
                                         account: CreateAccountForm, now: int, storedName: string)
    requires LoginFormValid(a) && LoginFormValid(b) && Unregistered(store, a) && Unregistered(store, b)
    requires CreateAccountFormValid(account)
    ensures var vs := SwitchAfterVerifying(a, da, b, db);
      var st := Run(vs, State(map[], store, []), ResetsVerification);
      var done := Apply(CreateAccountVisit(account, true, now, storedName), st, ResetsVerification);
      && GetString(st.session, PhoneVerifiedKey).None?
      && done.store == store
      && CreateAccount(st.session, st.store, account, true, now, storedName).outcome == RedirectTo(AccountLogin)
  {
    var vs := SwitchAfterVerifying(a, da, b, db);
    var start := State(map[], store, []);
    RunOfThree(vs[0], vs[1], vs[2], start, ResetsVerification);
    var st1 := Apply(vs[0], start, ResetsVerification);
    FirstLoginStep(store, a, da, ResetsVerification);
    var st2 := Apply(vs[1], st1, ResetsVerification);
    CorrectCodeStep(st1, GenerateOtp(da), ResetsVerification);
    var st := Apply(vs[2], st2, ResetsVerification);
    assert vs == [vs[0], vs[1], vs[2]];
    assert st.store == store;
    RefusedStep(st, account, now, storedName, ResetsVerification);
  }
}

=== FILE: whatsapp.dfy ===
/**
 * The messaging channel and its three message templates. A send is an
 * abstract operation: the message is handed over and the channel answers
 * with a boolean. The controllers' own notifications go to the console
 * instead, so every message carries the channel it was written to.
 */
module WhatsApp {
  import Text

  datatype Channel = WhatsAppChannel | ConsoleChannel

  datatype Message = Message(channel: Channel, to: string, text: string)

  /** A message handed to the channel and the channel's answer. */
  datatype Dispatch = Dispatch(sent: Message, ok: bool)

  /**
   * `SendMessageAsync`: never throws. `failure` stands for any exception
   * raised while writing the message out; it is caught and reported as false.
   */
  function SendMessage(phone: string, text: string, failure: bool): (d: Dispatch)
    ensures d.sent.channel == WhatsAppChannel && d.sent.to == phone && d.sent.text == text
    ensures d.ok <==> !failure
  {
    Dispatch(Message(WhatsAppChannel, phone, text), !failure)
  }

  const OtpOpening: string := "رمز التحقق الخاص بك في السوق العكسي: "
  const OtpClosing: string := "\nلا تشارك هذا الرمز مع أي شخص."

  /** The login / registration code message: the fixed opening, the code, the fixed warning. */
  function OtpText(otp: string): (t: string)
    ensures Text.Contains(t, otp)
    ensures |t| == |OtpOpening| + |otp| + |OtpClosing|
    ensures t[..|OtpOpening|] == OtpOpening && t[|t| - |OtpClosing|..] == OtpClosing
    ensures t[|OtpOpening|..|t| - |OtpClosing|] == otp
  {
    Text.ContainsMiddle(OtpOpening, otp, OtpClosing);
    var t := OtpOpening + otp + OtpClosing;
    assert t[..|OtpOpening|] == OtpOpening;
    assert t[|OtpOpening|..|t| - |OtpClosing|] == otp;
    t
  }

  /** The greeting both notices open with. */
  const Greeting: string := "مرحباً "
  const StoreNoticeClosing: string := "\n\n" + "السوق العكسي"

  /**
   * The message sent to a store whose specialty matches a new request: the
   * greeting and the store's name open it, and the link sits just before
   * the closing signature.
   */
  function StoreNoticeText(storeName: string, requestTitle: string, requestUrl: string): (t: string)
    ensures Text.Contains(t, storeName)
    ensures Text.Contains(t, requestTitle)
    ensures Text.Contains(t, requestUrl)
    ensures |t| >= |Greeting| + |storeName| + |requestUrl| + |StoreNoticeClosing|
    ensures t[..|Greeting|] == Greeting && t[|Greeting|..|Greeting| + |storeName|] == storeName
    ensures t[|t| - |StoreNoticeClosing|..] == StoreNoticeClosing
    ensures t[|t| - |StoreNoticeClosing| - |requestUrl|..|t| - |StoreNoticeClosing|] == requestUrl
  {
    var mid1 := "!\n\n" + "لديك طلب جديد في تخصصك:\n" + "📋 ";
    var mid2 := "\n\n" + "للمشاهدة والتواصل مع العميل:\n";
    var t := Greeting + storeName + mid1 + requestTitle + mid2 + requestUrl + StoreNoticeClosing;
    assert t == Greeting + storeName + (mid1 + requestTitle + mid2 + requestUrl + StoreNoticeClosing);
    Text.ContainsMiddle(Greeting, storeName, mid1 + requestTitle + mid2 + requestUrl + StoreNoticeClosing);
    assert t == (Greeting + storeName + mid1) + requestTitle + (mid2 + requestUrl + StoreNoticeClosing);
    Text.ContainsMiddle(Greeting + storeName + mid1, requestTitle, mid2 + requestUrl + StoreNoticeClosing);
    var front := Greeting + storeName + mid1 + requestTitle + mid2;
    assert t == front + requestUrl + StoreNoticeClosing;
    Text.ContainsMiddle(front, requestUrl, StoreNoticeClosing);
    assert t[|front|..|front| + |requestUrl|] == requestUrl;
    t
  }

  const ApprovalClosing: string := "\n\n" + "سيتم إشعار المتاجر المتخصصة وستبدأ بتلقي العروض قريباً.\n\n"
    + "شكراً لاستخدامك السوق العكسي"

  /**
   * The message telling a buyer their request was approved: the greeting
   * and the buyer's name open it, and the title sits just before the fixed
   * closing paragraph.
   */
  function ApprovalText(userName: string, requestTitle: string): (t: string)
    ensures Text.Contains(t, userName)
    ensures Text.Contains(t, requestTitle)
    ensures |t| >= |Greeting| + |userName| + |requestTitle| + |ApprovalClosing|
    ensures t[..|Greeting|] == Greeting && t[|Greeting|..|Greeting| + |userName|] == userName
    ensures t[|t| - |ApprovalClosing|..] == ApprovalClosing
    ensures t[|t| - |ApprovalClosing| - |requestTitle|..|t| - |ApprovalClosing|] == requestTitle
  {
    var mid := "!\n\n" + "تم الموافقة على طلبك: ";
    var t := Greeting + userName + mid + requestTitle + ApprovalClosing;
    assert t == Greeting + userName + (mid + requestTitle + ApprovalClosing);
    Text.ContainsMiddle(Greeting, userName, mid + requestTitle + ApprovalClosing);
    var front := Greeting + userName + mid;
    assert t == front + requestTitle + ApprovalClosing;
    Text.ContainsMiddle(front, requestTitle, ApprovalClosing);
    assert t[|front|..|front| + |requestTitle|] == requestTitle;
    t
  }

  /** The message `SendOTPAsync` hands to `SendMessageAsync`. */
  function OtpMessage(phone: string, otp: string): (m: Message)
    ensures m.channel == WhatsAppChannel && m.to == phone
    ensures Text.Contains(m.text, otp)
  {
    Message(WhatsAppChannel, phone, OtpText(otp))
  }

  /** `SendOTPAsync`: one send, to the same number, whose text carries the code. */
  function SendOtp(phone: string, otp: string, failure: bool): (d: Dispatch)
    ensures d.sent.channel == WhatsAppChannel && d.sent.to == phone
    ensures Text.Contains(d.sent.text, otp)
    ensures d.ok <==> !failure
  {
    Dispatch(OtpMessage(phone, otp), !failure)
  }

  /** `NotifyStoreAsync`: one send to the store's number naming the store, the request and its link. */
  function NotifyStore(phone: string, storeName: string, requestTitle: string, requestUrl: string, failure: bool): (d: Dispatch)
    ensures d.sent.channel == WhatsAppChannel && d.sent.to == phone
    ensures Text.Contains(d.sent.text, storeName)
    ensures Text.Contains(d.sent.text, requestTitle)
    ensures Text.Contains(d.sent.text, requestUrl)
    ensures d.ok <==> !failure
  {
    SendMessage(phone, StoreNoticeText(storeName, requestTitle, requestUrl), failure)
  }

  /** `NotifyUserApprovalAsync`: one send naming the buyer and the approved request. */
  function NotifyUserApproval(phone: string, userName: string, requestTitle: string, failure: bool): (d: Dispatch)
    ensures d.sent.channel == WhatsAppChannel && d.sent.to == phone
    ensures Text.Contains(d.sent.text, userName)
    ensures Text.Contains(d.sent.text, requestTitle)
    ensures d.ok <==> !failure
  {
    SendMessage(phone, ApprovalText(userName, requestTitle), failure)
  }
}

=== FILE: wrappers.dfy ===
/** A nullable value: `None` stands for C#'s `null` (or an absent `int?`). */
module Wrappers {

  datatype Option<+T> = None | Some(value: T) {

    /** The value, or `default` when absent (C#'s `??`). */
    function GetOr(default: T): T {
      match this
      case Some(v) => v
      case None => default
    }
  }
}
